=== FILE: README.md ===
# XDrop in Dafny

XDrop moves files and short texts between two browsers over a WebRTC data
channel. A small Express server acts as the rendezvous: one peer creates a
session and gets a token, posts its SDP offer under it, and polls for the
answer; the other peer types or scans the token, polls for the offer and
posts its answer. After that, the two clients talk over the data channel
with a four-kind frame protocol: `META:<json>`, binary chunks, `EOF` and
`MSG:<json>`.

This project models three parts of the system and proves properties of each.

- **The rendezvous store.** This is the token → `{offer, answer, at}` map of
  both server copies. It covers their session, offer, answer and debug
  handlers and the TTL sweep.
  - `Rendezvous` (rendezvous.dfy) gives each handler as a function from the
    store to a reply and a new store.
  - `SignalingServer.Server` (server.dfy) and
    `SignalingTestServer.TestServer` (test_server.dfy) hold the map in a
    field. They change it in place, one method per handler, and each method
    is proved equal to its function.
  - The production server retries numeric tokens until it finds a free one.
    The model proves there are exactly 900000 such tokens, so a free one
    exists while fewer than that many sessions are live.
  - The test server draws a base-36 token without checking whether it is
    live, so a live slot can be overwritten. This is proved too.
- **The data-channel protocol and the transfer engine** (framing.dfy).
  - It covers prefix routing of text frames and the cutting of a file into
    16 KiB or 64 KiB slices.
  - It covers the receiver's `expected`/`received`/`chunks` state machine.
  - The sender is written against an abstract `Channel`. Its
    `bufferedAmount` only falls while the sender waits.
  - The central results:
    - the sender writes exactly `META`, the slices in order, then `EOF`;
    - every binary frame leaves only when at most 1 MiB is buffered;
    - the progress values are the offsets after each slice, so they never
      decrease;
    - a receiver fed that frame sequence ends holding exactly the file's
      bytes.
- **The clients.**
  - `AppClient.Conn` (app.dfy) is the React `ConnProvider` of
    client/src/App.jsx.
  - `TestClient.Page` (test_client.dfy) is the plain-script page of
    signalingtest/public/app.js.
  - Their pure string helpers are in `ClientText` (client_text.dfy):
    `safeFilename`, `isProbablyURL`, `normalizeURL`, the base64url wrapper,
    the six-digit token rules and the start-up auto-join rule.
  - `Polling` (polling.dfy) models how `getJSONorNull` reads each server
    reply.
  - `Common` (common.dfy) holds JavaScript's `trim` and `\s`, and the
    in-order concatenation that `new Blob(chunks)` performs.

Time (`Date.now()`) is the parameter `now`. Random token draws are
nondeterministic choices. The browser's `new URL` succeeding is the
function parameter `parsesAsURL`. JSON text is replaced by the decoded
payload, carried inside the `Frame` datatype; `None` stands for a payload
that `JSON.parse` rejects.

A note on the offer lock. The server refuses a new offer (409) only while
both the offer and the answer are truthy. An answer POST is accepted
whenever the slot exists. So re-posting a falsy answer (`null`, missing or
`""`) to a finished slot makes it accept offers again.
`Rendezvous.AnswerKeepsOrReopensLock` states this as the code has it.

## Model

| member | source | states |
|---|---|---|
| Common.TrimBlank | client/src/App.jsx:283-284 | the trimmed text is empty exactly when every character is JavaScript whitespace, which is when `sendText` refuses |
| Common.TrimIdempotent | client/src/App.jsx:60 | trimming a trimmed text changes nothing |
| Common.TrimStart | client/src/App.jsx:38 | leading whitespace removed: the result is no longer than the text and does not start with whitespace |
| Common.TrimEnd | client/src/App.jsx:38 | trailing whitespace removed: the result is a prefix of the text and does not end with whitespace |
| Common.Trim | client/src/App.jsx:283 | `String.prototype.trim` (also used at client/src/App.jsx:38, 60 and 66): the result neither starts nor ends with whitespace; `TrimSlice` shows it is the text with only whitespace removed from both ends |
| Common.TrimStartSlice | client/src/App.jsx:60 | the result is a suffix of the text, and everything removed before it is whitespace |
| Common.TrimEndSlice | client/src/App.jsx:60 | the result is a prefix of the text, and everything removed after it is whitespace |
| Common.TrimSlice | client/src/App.jsx:60 | the trimmed text is a slice `s[i..j]` of the input with only whitespace before `i` and after `j` |
| Rendezvous.PostOffer | server/server.js:32-39 | 404 iff no slot, 409 iff offer and answer are both truthy, both leaving the store unchanged; otherwise 200 with only that slot's offer and `at` rewritten and every other slot kept |
| Rendezvous.GetOffer | server/server.js:41-47 | 404 iff no slot, 204 iff the offer is falsy, 200 iff it is truthy, and then the body is exactly the stored non-empty offer |
| Rendezvous.PostAnswer | server/server.js:49-55 | 404 iff no slot (store unchanged); otherwise 200 with the slot's answer and `at` overwritten, same keys, other slots kept |
| Rendezvous.GetAnswer | server/server.js:57-63 | 404 / 204 / 200 exactly as for the offer, returning the stored non-empty answer |
| Rendezvous.DebugSlot | server/server.js:65-70 | 404 iff no slot; otherwise 200 with the truthiness of offer and answer and the slot's `at` |
| Rendezvous.OfferRoundTrip | server/server.js:32-47 | posting a non-empty offer to a slot that is not consumed is accepted, and reading it back returns exactly that offer |
| Rendezvous.AnswerLastWriterWins | server/server.js:49-63 | after two answer posts the second is the one read back |
| Rendezvous.ConsumedRefusesOffers | server/server.js:36 | once offer and answer are both truthy, any offer post answers 409 and leaves the store as it was |
| Rendezvous.AnswerKeepsOrReopensLock | server/server.js:36-53 | re-posting an answer to a consumed slot keeps it consumed iff the new answer is truthy |
| Rendezvous.SweepEffect | server/server.js:12-16 | after a sweep a stale token answers 404 on both GETs; a live one answers offer, answer and debug exactly as before; no token is added |
| Rendezvous.Stale | server/server.js:15 | a slot is stale when more than `TTL_MS` = 600000 ms have passed since its `at`, as signalingtest/server.js:19 also tests; `SweepKeepsLive` shows the sweep removes exactly these |
| Rendezvous.SweepKeepsLive | server/server.js:12-16 | the swept store holds exactly the keys with `now - at <= 600000`, each with its slot unchanged |
| Rendezvous.SweepIdempotent | server/server.js:13-16 | sweeping again at the same instant removes nothing more |
| Rendezvous.DecimalRoundTrip | server/server.js:20-22 | the decimal digits `String(n)` yields read back to `n`, so distinct numbers give distinct tokens |
| Rendezvous.DecimalOfTokenNumber | server/server.js:18-22 | every number in [100000, 999999] prints as six digits without a leading zero |
| Rendezvous.NumericTokenCount | server/server.js:18-22 | there are exactly 900000 distinct numeric tokens |
| Rendezvous.NumericTokenShape | server/server.js:18-22 | every numeric token is six ASCII digits with a non-zero first digit |
| Rendezvous.FreeTokenExists | server/server.js:26-27 | while fewer than 900000 keys are live, some numeric token is not a key, so the do-while retry can succeed |
| Rendezvous.Issue | server/server.js:28 | issuing adds exactly the new key, holding an empty slot stamped `now`; both its GETs answer 204; every other slot is unchanged |
| Rendezvous.IssueOverwrites | signalingtest/server.js:26-29 | issuing a token that is already live throws away its posted offer: a GET that answered 200 now answers 204 |
| Rendezvous.ScenarioCreatePostGet | server/server.js:25-47 | create, poll (204), post `D1`, poll (`D1`) |
| Rendezvous.ScenarioConflict | server/server.js:32-55 | after an offer and an answer, a further offer is refused with 409 |
| SignalingServer.Server.constructor | server/server.js:11 | the store starts empty |
| SignalingServer.Server.CreateSession | server/server.js:25-30 | the token is a numeric token that was not live before; reply 200 `{token}`; the store is the old one with an empty slot at `now` added under it |
| SignalingServer.Server.PostOffer | server/server.js:32-39 | reply and new store are those of `Rendezvous.PostOffer` on the old store |
| SignalingServer.Server.GetOffer | server/server.js:41-47 | the reply is `Rendezvous.GetOffer` of the store, and the store is not modified |
| SignalingServer.Server.PostAnswer | server/server.js:49-55 | reply and new store are those of `Rendezvous.PostAnswer` on the old store |
| SignalingServer.Server.GetAnswer | server/server.js:57-63 | the reply is `Rendezvous.GetAnswer` of the store, read-only |
| SignalingServer.Server.Debug | server/server.js:65-70 | the reply is `Rendezvous.DebugSlot` of the store, read-only |
| SignalingServer.Server.Sweep | server/server.js:13-16 | the deleting loop over the entries leaves exactly `Swept(old store, now)` |
| SignalingTestServer.TestServer.constructor | signalingtest/server.js:14 | the store starts empty |
| SignalingTestServer.TestServer.CreateSession | signalingtest/server.js:23-30 | the token is at most six characters of 0-9a-z; reply 200 `{token}`; an empty slot at `now` is stored under it, replacing any live one |
| SignalingTestServer.IsBase36Draw | signalingtest/server.js:23 | what `newToken` can return: at most six characters, each an ASCII digit or a lower-case letter |
| SignalingTestServer.TestServer.PostOffer | signalingtest/server.js:33-40 | reply and new store are those of `Rendezvous.PostOffer` |
| SignalingTestServer.TestServer.GetOffer | signalingtest/server.js:42-48 | the reply is `Rendezvous.GetOffer` of the store, read-only |
| SignalingTestServer.TestServer.PostAnswer | signalingtest/server.js:51-57 | reply and new store are those of `Rendezvous.PostAnswer` |
| SignalingTestServer.TestServer.GetAnswer | signalingtest/server.js:59-65 | the reply is `Rendezvous.GetAnswer` of the store, read-only |
| SignalingTestServer.TestServer.Debug | signalingtest/server.js:68-73 | the reply is `Rendezvous.DebugSlot` of the store, read-only |
| SignalingTestServer.TestServer.Sweep | signalingtest/server.js:16-21 | the sweep loop leaves exactly `Swept(old store, now)` |
| Polling.GetJSONorNull | client/src/App.jsx:24-29 | 204 and 404 mean pending; any other status outside 2xx fails with that status; every other 2xx hands over the body |
| Polling.PollOffer | signalingtest/public/app.js:33-38 | polling the offer never fails against the server; it is pending exactly while the slot is missing or its offer falsy, and otherwise delivers the stored non-empty offer |
| Polling.PollAnswer | signalingtest/public/app.js:33-38 | the same for the answer |
| Polling.HandshakeDelivers | client/src/App.jsx:210-235 | after an offer post to an open slot the joiner's poll delivers exactly that offer; after the answer post the sender's poll delivers exactly that answer, and the offer still reads back |
| ClientText.SafeFilename | client/src/App.jsx:37-41 | a blank or `-` trimmed name gives `received.bin`; otherwise the trimmed name, same length, with each unsafe character turned into `_`; the result is never blank or `-` and holds no unsafe character |
| ClientText.Sanitize | client/src/App.jsx:40 | same length; each character of the class `[\\/:*?"<>\|\u0000-\u001F]` becomes `_`, all others are kept |
| ClientText.IsUnsafeFilenameChar | client/src/App.jsx:40 | the character class `[\\/:*?"<>\|\u0000-\u001F]` that `safeFilename` replaces by `_` |
| ClientText.SafeFilenameIdempotent | client/src/App.jsx:37-41 | sanitising a sanitised name changes nothing |
| ClientText.IsProbablyURL | client/src/App.jsx:59-64 | true iff the trimmed text is non-empty and parses as a URL or is `www.` (any case) followed by a non-space |
| ClientText.NormalizeURL | client/src/App.jsx:65-71 | the trimmed text, with `https://` prepended exactly when it has no http(s) scheme and starts with `www.` |
| ClientText.NormalizeURLIdempotent | client/src/App.jsx:65-71 | normalising twice equals normalising once |
| ClientText.NormalizeWwwHost | client/src/App.jsx:59-71 | a text that is a bare `www.` host is URL-like, and its normalised form carries an http(s) scheme |
| ClientText.PadCount | client/src/App.jsx:42 | counts exactly the trailing run of `=` that `/=+$/` removes |
| ClientText.ToBase64Url | client/src/App.jsx:42 | the padding is dropped and every remaining character is mapped `+`→`-`, `/`→`_` |
| ClientText.FromBase64Url | client/src/App.jsx:43 | the url alphabet mapped back, then `=` up to the next multiple of four (fewer than four added) |
| ClientText.UnwrapBase64Url | client/src/App.jsx:43 | the padding loop ends with `FromBase64Url(s)` |
| ClientText.Base64UrlRoundTrip | client/src/App.jsx:42-43 | for every padded base64 text as in section 4 of RFC 4648, unwrapping the wrapped text gives back exactly the original |
| ClientText.KeepDigits | client/src/App.jsx:432 | `replace(/\D/g, '')`: only ASCII digits remain, and a digit-only text is unchanged |
| ClientText.KeepDigitsSingle | client/src/App.jsx:432 | on one character: a digit is kept, anything else is dropped |
| ClientText.KeepDigitsAppend | client/src/App.jsx:432 | the digits of a concatenation are the digits of each part, in order, so every digit of the input is kept in place |
| ClientText.FilterToken | client/src/App.jsx:432 | at most six ASCII digits: the first `min(6, #digits)` digits of the input |
| ClientText.FilterTokenIdempotent | signalingtest/public/app.js:184-185 | filtering a filtered value changes nothing, and a six-digit token is kept as typed |
| ClientText.IsToken | client/src/App.jsx:16 | `TOKEN_RE`, `/^\d{6}$/`: exactly six ASCII digits; `TokenChecks` relates it to the input filter |
| ClientText.IsDigits | signalingtest/public/app.js:26 | `isDigits(s)`: the value, or the empty text when missing, is exactly six ASCII digits |
| ClientText.TokenChecks | signalingtest/public/app.js:26 | the test page's `isDigits` and the React client's `TOKEN_RE` (client/src/App.jsx:16) accept the same texts, a missing value is never a token, and a token is exactly a six-character text the input filter leaves as it is |
| ClientText.OnTokenInput | client/src/App.jsx:431-436 | the box shows the filtered value; a join starts exactly when it is a six-digit token, which is when the input holds at least six digits |
| ClientText.BootFromURL | signalingtest/public/app.js:222-232 | a join starts iff `t` is six digits, `role` is `join` and `auto` is `1`; a six-digit `t` without both only fills the box; otherwise nothing happens |
| Framing.RouteText | client/src/App.jsx:147-176 | `MSG:` first, carrying the text after the prefix; else `META:`, carrying the text after it; else `EOF` iff the text equals `EOF`; anything else goes nowhere |
| Framing.DecodeText | client/src/App.jsx:147-176 | a text frame becomes a `MSG` or `META` frame holding what the JSON parse of its routed payload gives, `EOF`, or other text, as `RouteText` routes it; `ControlFramesRoundTrip` shows encoded frames come back |
| Framing.ControlFramesRouting | client/src/App.jsx:149-168 | `META:`+json and `MSG:`+json route back to their own kind with the same JSON, and `EOF` to `EOF`, whatever the JSON |
| Framing.ControlFramesRoundTrip | client/src/App.jsx:149-168 | a control frame whose JSON parses is decoded to exactly the payload written |
| Framing.ChunksCover | client/src/App.jsx:264-274 | the slices concatenate back to the file |
| Framing.ChunkAt | client/src/App.jsx:264-274 | slice `k` is bytes `[k·size, min((k+1)·size, S))` |
| Framing.ChunkCount | client/src/App.jsx:264-274 | there are exactly enough slices to cover the file: `ceil(S / size)` of them |
| Framing.ChunkSizes | client/src/App.jsx:264-274 | every slice is non-empty and at most `size` bytes, and all but the last are exactly `size` |
| Framing.ScenarioHundredThousand | client/src/App.jsx:260-274 | a 100000-byte file goes out as six 16384-byte chunks and one of 1696 bytes |
| Framing.AccumulateConsistent | client/src/App.jsx:159-185 | every frame keeps `received` equal to the total length of `chunks` |
| Framing.Accumulate | client/src/App.jsx:159-185 | one frame's effect on the receiver (also signalingtest/public/app.js:62-84): `META` resets `expected` to the size with nothing received, a binary frame is appended and counted, any other frame changes nothing; `AccumulateConsistent`, `AccumulateBinaries` and `TransferRoundTrip` are its properties |
| Framing.AccumulateBinaries | client/src/App.jsx:179-185 | binary frames append their payloads in arrival order and add their lengths to `received`; `expected` is kept |
| Framing.TransferRoundTrip | client/src/App.jsx:159-185 | whatever the receiver held before, the frames a sender writes for a file leave it with `expected = received = S` and the chunks concatenating to exactly the file |
| Framing.MetaDiscardsPartial | client/src/App.jsx:159-166 | a `META` discards everything received before it: the later state does not depend on earlier frames |
| Framing.BarMax | client/src/App.jsx:163 | a bar maximum is never 0 and equals the size when that is non-zero |
| Framing.Channel.Send | client/src/App.jsx:270 | the frame is appended to what was sent, with the buffered amount seen at that moment; the buffer grows by a binary frame's length |
| Framing.Channel.AwaitBufferedAmountLow | client/src/App.jsx:268 | the buffered amount falls; nothing else changes |
| Framing.Channel.WaitBelowThreshold | client/src/App.jsx:267-269 | afterwards at most the threshold is buffered and nothing was sent |
| Framing.Channel.SendSlice | client/src/App.jsx:266-271 | exactly one binary frame holding `data[offset..min(offset+chunk, S)]` is sent, at a buffer level within the threshold |
| Framing.Channel.StreamChunks | client/src/App.jsx:264-274 | the sent frames gain exactly one binary frame per slice, in order; each left at a buffered amount at most 1 MiB; the ghost `progress` has one entry per slice plus the initial 0, entry `k` being the offset `min(k * chunk, S)` after `k` slices, so it never decreases, stays within S and ends at S; the channel stays open with the threshold at 1 MiB, and the send-time levels of frames sent before are kept |
| Framing.Channel.StreamFile | client/src/App.jsx:260-275 | the sent frames gain exactly `META{name, S}`, the slices in order and `EOF`, flow controlled, with the threshold set to 1 MiB, the channel's open state kept and the send-time levels of earlier frames kept; `progress` is the offset after each slice, as for `StreamChunks` |
| Framing.Channel.Close | client/src/App.jsx:294 | the channel is no longer open; what was sent is kept |
| Framing.ProgressOffsetsStep | client/src/App.jsx:271-272 | while the offset is below the size, adding one slice's length gives the next entry `min((k + 1) * chunk, S)` of the offset sequence |
| Framing.ProgressNeverDecreases | client/src/App.jsx:272 | any two progress values published during one send are in order |
| AppClient.ReceivedKind | client/src/App.jsx:152 | a message is filed as a URL iff it was declared `url` or its text looks like a URL |
| AppClient.KindsAgree | client/src/App.jsx:286-288 | the receiver files a message under the kind its sender declared, with the same text |
| AppClient.SentKind | client/src/App.jsx:286 | the sender declares `url` iff the text is a probable URL; `KindsAgree` shows the receiver agrees |
| AppClient.EntryName | client/src/App.jsx:256 | `file.name \|\| '(unnamed)'`: an empty name is shown as `(unnamed)` |
| AppClient.Conn.constructor | client/src/App.jsx:78-95 | no peer or channel, `Idle`, hidden bars, the `—` label, empty lists |
| AppClient.Conn.OnOpen | client/src/App.jsx:124-129 | the channel becomes current and connected; nothing else changes |
| AppClient.Conn.OnClose | client/src/App.jsx:130-137 | only the current channel's closing disconnects and says `closed`; any other leaves everything as it was |
| AppClient.Conn.WireRecvChannel | client/src/App.jsx:140-145 | a fresh, consistent receiver; the bar is idle and the label `—` |
| AppClient.Conn.OnChat | client/src/App.jsx:149-157 | an incoming entry with the received kind and text is prepended to the messages |
| AppClient.Conn.OnMeta | client/src/App.jsx:159-166 | the receiver restarts at the declared size, the label is the sanitised name, the bar is shown at 0 of `size \|\| 1`; nothing else changes |
| AppClient.Conn.OnEof | client/src/App.jsx:168-176 | the chunks concatenated in order are filed under the declared size; the bar jumps to that size unless it is 0; the receiver keeps its chunks |
| AppClient.Conn.OnChunk | client/src/App.jsx:179-185 | the chunk is appended and counted, and the bar shows the count |
| AppClient.Conn.OnMessage | client/src/App.jsx:146-186 | the receiver state moves as `Accumulate` says; per frame kind, exactly the messages, label, bar and file list change as above; malformed JSON, other text and unreadable payloads change nothing |
| AppClient.Conn.SendFile | client/src/App.jsx:251-278 | refuses iff the channel is missing or not open, then iff no file; refusals leave the channel untouched; the channel's open state is always kept; otherwise the channel gains exactly the transfer frames in 16 KiB slices under flow control with its threshold left at 1 MiB and earlier send-time levels kept, the bar ends full, the prepended entry is marked done with all bytes, and `progress` is the offset `min(k * 16384, S)` after each slice `k` |
| AppClient.Conn.SendText | client/src/App.jsx:280-291 | refuses iff the channel is not open, then iff the text is blank; otherwise sends one `MSG{kind, trimmed text}` with kind `url` iff URL-like, and prepends the outgoing entry, the `MSG` being recorded at the buffered amount seen when it was sent and adding nothing to it; refusals leave the channel untouched, and its open state and threshold are always kept, so a following send is not refused as `NotOpen` |
| AppClient.Conn.Reset | client/src/App.jsx:293-305 | the channel is closed with its frames, send-time levels, buffered amount and threshold kept; the peer is forgotten, every list emptied, both bars idle and the label `—` |
| AppClient.Conn.Forget | client/src/App.jsx:296-304 | the provider's fields after the closes; only the fields `reset` assigns change |
| TestClient.NameOr | signalingtest/public/app.js:67 | a non-empty name is kept; an empty one becomes `received.bin`; the result is never empty |
| TestClient.Page.constructor | signalingtest/public/app.js:22 | no peer or channel, not connected, sending disabled, both bars hidden, no join pending |
| TestClient.Page.OnOpen | signalingtest/public/app.js:56 | the channel becomes current, sending is enabled, `Connected` is shown; nothing else changes |
| TestClient.Page.OnClose | signalingtest/public/app.js:57 | only the current channel's closing disables sending and shows `Disconnected` |
| TestClient.Page.WireRecvChannel | signalingtest/public/app.js:59-61 | a fresh, consistent receiver; the bar hidden at 0 with its maximum kept |
| TestClient.Page.OnMessage | signalingtest/public/app.js:62-85 | the receiver moves as `Accumulate` says; `META` sets the label (or `received.bin`) and shows the bar at 0 of `size \|\| 1`; a chunk advances the bar; `EOF` offers the in-order concatenation for download under the label's name |
| TestClient.Page.ResetPeer | signalingtest/public/app.js:88-99 | the channel is closed with its frames, send-time levels, buffered amount and threshold kept; peer, channel and connection cleared; sending disabled; both bars hidden at 0; label `—`; link hidden; status empty; the token box and joins are untouched |
| TestClient.Page.ForgetPeer | signalingtest/public/app.js:91-97 | the page's fields after the closes; only the fields `resetPeer` assigns change |
| TestClient.Page.SendFile | signalingtest/public/app.js:194-217 | refuses iff not connected, then iff no file, leaving the channel untouched; the channel's open state is always kept; otherwise the channel gains exactly the transfer frames in 64 KiB slices under flow control with its threshold left at 1 MiB and earlier send-time levels kept, the bar ends at the size, and `progress` is the offset `min(k * 65536, S)` after each slice `k` |
| TestClient.Page.OnTokenInput | signalingtest/public/app.js:183-191 | the box keeps the filtered value; a complete token schedules a join for it and shows `Joining…`; otherwise the pending join and status are kept |
| TestClient.Page.BootFromURL | signalingtest/public/app.js:222-232 | a six-digit `t` fills the box and shows `Code: t`, and a join starts only for `role=join&auto=1`; otherwise nothing changes |

## Left out

- WebRTC (`RTCPeerConnection`, offer and answer creation, ICE gathering, `ondatachannel`). This is a browser API outside the model. A data channel is the abstract `Framing.Channel`, and a peer connection is the boolean `hasPeer`. Because creating and joining are left out, no modelled operation sets `hasPeer`; the model only clears it (`Reset`, `ResetPeer`).
- The polling loops with `sleep` (`startSender`, `joinReceiver`, `startOffer`, `joinWithToken`). They are I/O-driven and need not terminate. Only the reply classification (`Polling`) and what one poll delivers are modelled.
- Express routing, body parsing, static files, the catch-all route, `app.listen` and `setInterval`. Handlers are methods, and the sweep is a method taking `now`.
- `Date.now` and `Math.random` are parameters or nondeterministic choices.
- Base-36 float formatting in signalingtest/server.js. Its result is modelled as any string of at most six characters from 0-9a-z.
- SignalingServer.Server.CreateSession: requires fewer than 900000 live sessions. With the store full, the source's do-while loop never ends.
- JSON encoding and parsing. Frames carry decoded payloads.
- Non-string `token` or `sdp` values in a request are not modelled. Tokens and descriptions are strings (or absent); `store.get(123456)` with a numeric token would miss where the model's string key is found.
- The source keeps one `expected`/`received`/`chunks` closure per wired channel. `AppClient.Conn` and `TestClient.Page` keep a single receiver state, reset by each `WireRecvChannel`; frames arriving on an earlier channel after a re-wire are not modelled separately.
- A `META` whose `name` is not a string. In client/src/App.jsx:160-162 the receiver is reset before `safeFilename` runs, so a truthy non-string name (such as `5`) throws at `.trim` (client/src/App.jsx:38) and leaves the receiver reset with the old label and bar. signalingtest/public/app.js:67 shows the name's string form instead. The model's `MetaInfo.name` is a string, so neither path is modelled.
- A `MSG` text that is not a string: the model's text is a string or absent, and `String(m.text || '')` becomes "the text, or empty".
- `new URL` is the parameter `parsesAsURL`. `btoa` and `atob` are outside the model; only the text transforms around them are covered.
- `Blob` and `createObjectURL` are modelled as the concatenated bytes the object URL holds.
- `formatBytes`: float division and `toFixed`.
- Sizes use no `|0` int32 truncation. File sizes are taken as below 2^31, where it is the identity.
- TestClient.Page.OnMessage: requires a `META`, `EOF` or binary frame. signalingtest/public/app.js coerces any other text frame with `new Uint8Array(string)`, which is not modelled.
- A binary payload that arrives as a `Blob` and is read with `await e.data.arrayBuffer()` (client/src/App.jsx:181) is modelled as its bytes. Other frames handled during that await are not modelled.
- The initial DOM state of the test page (send button disabled, bars hidden, label `—`) comes from its HTML, which is not part of this model. `TestClient.Page.constructor` assumes it.
- AppClient.Conn.OnEof: names the file after the current `recvName`. client/src/App.jsx:171 reads the `recvName` captured by the closure, an earlier render's value, which is a React rendering detail outside the model.
- Logs, QR rendering, clipboard, navigation, the token display state (`setToken`, `myCode`) and the link's text.
- The join itself after a token is complete. `TestClient.Page` records only which join was started or scheduled; the 200 ms debounce is not modelled.
- The start-up effect of `JoinPage` (client/src/App.jsx:404-423), which also reads a token from a `#qr=` fragment. Only its `onChange` token filter is modelled.
- Framing.Channel.AwaitBufferedAmountLow: drains by an unspecified amount. Transport-side sending and the `bufferedamountlow` event timing are outside the model; only the strict decrease is captured.
- Control frames (`META`, `EOF`, `MSG`) add nothing to the model's buffered amount. Only binary frames are flow controlled by the senders.
- The channel closing, or `readyState` changing, while a transfer awaits.
- AppClient.Conn.SendFile: the per-chunk updates of the bar and of the entry's byte count are summarised. The ghost `progress` lists the values they take, `min(k * 16384, S)` after `k` slices; the fields hold the final values.
- TestClient.Page.SendFile: the same summary for the bar, whose values are `min(k * 65536, S)`.
- Exceptions thrown by `close()` (swallowed by `try`/`catch` in the source) are not modelled; closing always succeeds.
- Characters are Unicode scalar values, not UTF-16 code units.

=== FILE: app.dfy ===
/** The connection provider of the React client (client/src/App.jsx,
    `ConnProvider`): the state it keeps about the peer, the data channel,
    transfers and chat, the receiver's frame handler, the chunked sender,
    the text sender and `reset`. React state setters become field
    assignments; the peer connection is reduced to whether it exists. */
module AppClient {
  import opened Common
  import opened Framing
  import opened ClientText

  const IDLE_PROGRESS := Progress(true, 1, 0)

  datatype Kind = Text | Url
  datatype Direction = In | Out

  /** An entry of `messages`. */
  datatype ChatMessage = ChatMessage(dir: Direction, kind: Kind, text: string, ts: int)

  /** An entry of `recvFiles`; the object URL stands for the bytes it holds. */
  datatype ReceivedFile = ReceivedFile(name: string, size: int, data: seq<byte>, ts: int)

  /** An entry of `sentFiles`. */
  datatype SentFile = SentFile(name: string, size: int, bytes: int, done: bool, ts: int)

  /** The errors `sendFile` and `sendText` throw. */
  datatype SendError = NotOpen | NoFile | EmptyMessage

  /** The `kind` field of a `MSG` payload. */
  function KindName(k: Kind): string {
    match k
    case Text => "text"
    case Url => "url"
  }

  /** The kind a sender declares for a text. */
  function SentKind(text: string, parsesAsURL: string -> bool): Kind {
    if IsProbablyURL(text, parsesAsURL) then Url else Text
  }

  /** The kind a receiver files a `MSG` under: `url` when declared so or
      when the text looks like a URL. */
  function ReceivedKind(g: MsgInfo, parsesAsURL: string -> bool): (k: Kind)
    ensures k == Url <==> g.kind == Some("url") || IsProbablyURL(g.text.GetOr(""), parsesAsURL)
  {
    if g.kind == Some("url") then Url
    else if IsProbablyURL(g.text.GetOr(""), parsesAsURL) then Url
    else Text
  }

  /** Sender and receiver agree: the message a sender writes for `text` is
      filed by the receiver under the same kind, with the same text. */
  lemma KindsAgree(text: string, parsesAsURL: string -> bool)
    ensures var k := SentKind(text, parsesAsURL);
      var g := MsgInfo(Some(KindName(k)), Some(text));
      ReceivedKind(g, parsesAsURL) == k && g.text.GetOr("") == text
  {
  }

  /** `file.name || '(unnamed)'`. */
  function EntryName(name: string): string {
    if name == "" then "(unnamed)" else name
  }

  class Conn {
    /** The browser's `new URL(t)` succeeding. */
    const parsesAsURL: string -> bool

    var hasPeer: bool        // pcRef.current !== null
    var dc: Channel?         // dcRef.current
    var connected: bool
    var status: string
    var sendProg: Progress
    var recvProg: Progress
    var recvName: string
    var recvFiles: seq<ReceivedFile>
    var sentFiles: seq<SentFile>
    var messages: seq<ChatMessage>

    // The closure variables of the current `wireRecvChannel`.
    var expected: int
    var received: int
    var chunks: seq<seq<byte>>

    /** The receiver state as one value. */
    function Acc(): Accumulator
      reads this
    {
      Accumulator(expected, received, chunks)
    }

    /** The provider's initial `useState` values. */
    constructor (parsesAsURL: string -> bool)
      ensures this.parsesAsURL == parsesAsURL
      ensures !hasPeer && dc == null && !connected && status == "Idle"
      ensures sendProg == IDLE_PROGRESS && recvProg == IDLE_PROGRESS && recvName == NO_NAME
      ensures recvFiles == [] && sentFiles == [] && messages == []
      ensures Acc() == Accumulator(0, 0, [])
    {
      this.parsesAsURL := parsesAsURL;
      hasPeer, dc, connected, status := false, null, false, "Idle";
      sendProg, recvProg, recvName := IDLE_PROGRESS, IDLE_PROGRESS, NO_NAME;
      recvFiles, sentFiles, messages := [], [], [];
      expected, received, chunks := 0, 0, [];
    }

    /** `wireSendChannel`'s `onopen`: the channel becomes the current one. */
    method OnOpen(ch: Channel)
      requires ch.Valid()
      modifies this
      ensures dc == ch && dc.Valid() && connected && status == "connected"
      ensures hasPeer == old(hasPeer) && sendProg == old(sendProg) && recvProg == old(recvProg)
      ensures recvName == old(recvName) && recvFiles == old(recvFiles) && sentFiles == old(sentFiles)
      ensures messages == old(messages) && expected == old(expected) && received == old(received) && chunks == old(chunks)
    {
      dc, connected, status := ch, true, "connected";
    }

    /** `wireSendChannel`'s `onclose`: only the current channel's closing
        disconnects. */
    method OnClose(ch: Channel)
      modifies this
      ensures old(dc) == ch ==> dc == null && !connected && status == "closed"
      ensures old(dc) != ch ==> dc == old(dc) && connected == old(connected) && status == old(status)
      ensures hasPeer == old(hasPeer) && sendProg == old(sendProg) && recvProg == old(recvProg)
      ensures recvName == old(recvName) && recvFiles == old(recvFiles) && sentFiles == old(sentFiles)
      ensures messages == old(messages) && expected == old(expected) && received == old(received) && chunks == old(chunks)
    {
      if dc == ch {
        dc, connected, status := null, false, "closed";
      }
    }

    /** `wireRecvChannel`: a fresh, empty receiver and a hidden bar. */
    method WireRecvChannel()
      modifies this
      ensures Acc() == Accumulator(0, 0, []) && Consistent(Acc())
      ensures recvProg == IDLE_PROGRESS && recvName == NO_NAME
      ensures hasPeer == old(hasPeer) && dc == old(dc) && connected == old(connected)
      ensures status == old(status) && sendProg == old(sendProg) && recvFiles == old(recvFiles)
      ensures sentFiles == old(sentFiles) && messages == old(messages)
    {
      expected, received, chunks := 0, 0, [];
      recvProg := IDLE_PROGRESS;
      recvName := NO_NAME;
    }

    /** A `MSG` frame: an incoming chat entry, filed as a URL when declared
        so or when the text looks like one. */
    method OnChat(g: MsgInfo, now: int)
      modifies this
      ensures messages == [ChatMessage(In, ReceivedKind(g, parsesAsURL), g.text.GetOr(""), now)] + old(messages)
      ensures recvProg == old(recvProg) && recvName == old(recvName) && recvFiles == old(recvFiles)
      ensures expected == old(expected) && received == old(received) && chunks == old(chunks)
      ensures hasPeer == old(hasPeer) && dc == old(dc) && connected == old(connected)
      ensures status == old(status) && sendProg == old(sendProg) && sentFiles == old(sentFiles)
    {
      var kind := ReceivedKind(g, parsesAsURL);
      messages := [ChatMessage(In, kind, g.text.GetOr(""), now)] + messages;
    }

    /** A `META` frame: the receiver restarts for the declared size, the
        name is sanitised, the bar is shown empty. */
    method OnMeta(m: MetaInfo)
      modifies this`expected, this`received, this`chunks, this`recvName, this`recvProg
      ensures expected == m.size && received == 0 && chunks == []
      ensures recvName == SafeFilename(m.name) && recvProg == Progress(false, BarMax(m.size), 0)
    {
      expected, received, chunks := m.size, 0, [];
      recvName := SafeFilename(m.name);
      recvProg := Progress(false, BarMax(expected), 0);
    }

    /** `EOF`: the chunks so far, concatenated in order, are filed under the
        declared size; the bar jumps to that size unless it is 0. The
        receiver state is kept. */
    method OnEof(now: int)
      modifies this
      ensures recvFiles == [ReceivedFile(SafeFilename(old(recvName)), expected, Flatten(chunks), now)] + old(recvFiles)
      ensures recvProg == old(recvProg).(value := if expected != 0 then expected else old(recvProg.value))
      ensures Acc() == old(Acc()) && recvName == old(recvName) && messages == old(messages)
      ensures hasPeer == old(hasPeer) && dc == old(dc) && connected == old(connected)
      ensures status == old(status) && sendProg == old(sendProg) && sentFiles == old(sentFiles)
    {
      var n := SafeFilename(recvName);
      recvFiles := [ReceivedFile(n, expected, Flatten(chunks), now)] + recvFiles;
      recvProg := recvProg.(value := if expected != 0 then expected else recvProg.value);
    }

    /** A binary frame: appended and counted; the bar shows the count. */
    method OnChunk(d: seq<byte>)
      modifies this
      ensures Acc() == Accumulator(old(expected), old(received) + |d|, old(chunks) + [d])
      ensures recvProg == old(recvProg).(value := received)
      ensures recvName == old(recvName) && recvFiles == old(recvFiles) && messages == old(messages)
      ensures hasPeer == old(hasPeer) && dc == old(dc) && connected == old(connected)
      ensures status == old(status) && sendProg == old(sendProg) && sentFiles == old(sentFiles)
    {
      chunks := chunks + [d];
      received := received + |d|;
      recvProg := recvProg.(value := received);
    }

    /** `ch.onmessage`: one frame arrives. The receiver state moves as
        `Accumulate` says; malformed `MSG`/`META` JSON, other text and
        unreadable payloads change nothing. */
    method OnMessage(f: Frame, now: int)
      modifies this
      ensures Acc() == Accumulate(old(Acc()), f)
      ensures (f.Msg? && f.msg.Some?) ==>
        messages == [ChatMessage(In, ReceivedKind(f.msg.value, parsesAsURL), f.msg.value.text.GetOr(""), now)]
                    + old(messages)
      ensures !(f.Msg? && f.msg.Some?) ==> messages == old(messages)
      ensures (f.Meta? && f.meta.Some?) ==>
        recvName == SafeFilename(f.meta.value.name)
        && recvProg == Progress(false, BarMax(f.meta.value.size), 0)
      ensures f.Eof? ==>
        recvFiles == [ReceivedFile(SafeFilename(old(recvName)), old(expected), Flatten(old(chunks)), now)]
                     + old(recvFiles)
        && recvProg == old(recvProg).(value := if old(expected) != 0 then old(expected) else old(recvProg.value))
      ensures !f.Eof? ==> recvFiles == old(recvFiles)
      ensures f.Binary? ==> recvProg == old(recvProg).(value := received)
      ensures !(f.Meta? && f.meta.Some?) ==> recvName == old(recvName)
      ensures !(f.Meta? && f.meta.Some?) && !f.Eof? && !f.Binary? ==> recvProg == old(recvProg)
      ensures hasPeer == old(hasPeer) && dc == old(dc) && connected == old(connected)
      ensures status == old(status) && sendProg == old(sendProg) && sentFiles == old(sentFiles)
    {
      match f
      case Msg(Some(g)) => OnChat(g, now);
      case Meta(Some(m)) => OnMeta(m);
      case Eof => OnEof(now);
      case Binary(d) => OnChunk(d);
      case _ =>
    }

    /** `sendFile(file)`: refuses without an open channel or a file;
        otherwise records the outgoing entry and shows the bar, streams the
        file in 16 KiB chunks, and marks the entry done. `progress` is the
        sequence of values the bar and the entry's byte count take. */
    method SendFile(file: Option<FileBlob>, now: int) returns (err: Option<SendError>, ghost progress: seq<int>)
      requires dc != null ==> dc.Valid()
      modifies this, dc
      ensures dc == old(dc) && (dc != null ==> dc.Valid())
      ensures err == Some(NotOpen) <==> old(dc) == null || !old(dc.open)
      ensures err == Some(NoFile) <==> old(dc) != null && old(dc.open) && file.None?
      ensures err != Some(EmptyMessage)
      ensures err.Some? ==> sendProg == old(sendProg) && sentFiles == old(sentFiles)
      ensures err.Some? && dc != null ==> dc.sent == old(dc.sent)
      ensures err.Some? && dc != null ==> unchanged(dc)
      ensures dc != null ==> dc.open == old(dc.open)
      ensures err.None? ==>
        var size := |file.value.data|;
        dc.sent == old(dc.sent) + TransferFrames(file.value.name, file.value.data, APP_CHUNK)
        && FlowControlled(dc.sent, dc.bufferedAtSend, old(|dc.sent|))
        && dc.lowThreshold == HIGH_WATER
        && dc.bufferedAtSend[..|old(dc.sent)|] == old(dc.bufferedAtSend)
        && sendProg == Progress(false, BarMax(size), size)
        && sentFiles == [SentFile(EntryName(file.value.name), size, size, true, now)] + old(sentFiles)
        && ProgressOk(progress, size) && |progress| > 0 && progress[0] == 0 && progress[|progress| - 1] == size
        && |progress| == |ChunksFrom(file.value.data, 0, APP_CHUNK)| + 1
        && ProgressAtOffsets(progress, APP_CHUNK, size)
      ensures hasPeer == old(hasPeer) && connected == old(connected) && status == old(status)
      ensures recvProg == old(recvProg) && recvName == old(recvName) && recvFiles == old(recvFiles)
      ensures messages == old(messages) && expected == old(expected) && received == old(received) && chunks == old(chunks)
    {
      progress := [];
      var ch := dc;
      if ch == null || !ch.open {
        return Some(NotOpen), progress;
      }
      if file.None? {
        return Some(NoFile), progress;
      }
      var name, data := file.value.name, file.value.data;
      sentFiles := [SentFile(EntryName(name), |data|, 0, false, now)] + sentFiles;
      sendProg := Progress(false, BarMax(|data|), 0);
      progress := ch.StreamFile(name, data, APP_CHUNK);
      sendProg := sendProg.(value := |data|);
      sentFiles := [sentFiles[0].(bytes := sentFiles[0].size, done := true)] + sentFiles[1..];
      err := None;
    }

    /** `sendText(textRaw)`: refuses without an open channel or with blank
        text; otherwise writes `MSG{kind, text}` for the trimmed text and
        records the outgoing entry. */
    method SendText(textRaw: string, now: int) returns (err: Option<SendError>)
      requires dc != null ==> dc.Valid()
      modifies dc, this
      ensures err == Some(NotOpen) <==> old(dc) == null || !old(dc.open)
      ensures err == Some(EmptyMessage) <==> old(dc) != null && old(dc.open) && AllWhitespace(textRaw)
      ensures err != Some(NoFile)
      ensures dc == old(dc) && (dc != null ==> dc.Valid())
      ensures err.Some? ==> messages == old(messages) && (dc != null ==> dc.sent == old(dc.sent))
      ensures err.Some? && dc != null ==> unchanged(dc)
      ensures dc != null ==> dc.open == old(dc.open) && dc.lowThreshold == old(dc.lowThreshold)
      ensures err.None? ==>
        var text := Trim(textRaw);
        var kind := SentKind(text, parsesAsURL);
        dc.sent == old(dc.sent) + [Msg(Some(MsgInfo(Some(KindName(kind)), Some(text))))]
        && messages == [ChatMessage(Out, kind, text, now)] + old(messages)
        && dc.bufferedAtSend == old(dc.bufferedAtSend) + [old(dc.bufferedAmount)]
        && dc.bufferedAmount == old(dc.bufferedAmount)
      ensures hasPeer == old(hasPeer) && connected == old(connected) && status == old(status)
      ensures sendProg == old(sendProg) && recvProg == old(recvProg) && recvName == old(recvName)
      ensures recvFiles == old(recvFiles) && sentFiles == old(sentFiles) && expected == old(expected) && received == old(received) && chunks == old(chunks)
    {
      var ch := dc;
      if ch == null || !ch.open {
        return Some(NotOpen);
      }
      var text := Trim(textRaw);
      TrimBlank(textRaw);
      if text == [] {
        return Some(EmptyMessage);
      }
      var kind := SentKind(text, parsesAsURL);
      ch.Send(Msg(Some(MsgInfo(Some(KindName(kind)), Some(text)))));
      messages := [ChatMessage(Out, kind, text, now)] + messages;
      err := None;
    }

    /** `reset()`: closes the channel, forgets the peer, and clears every
        list, bar and label. The receiver closure is left as it was. */
    method Reset()
      modifies this, dc
      ensures old(dc) != null ==> !old(dc).open
      ensures old(dc) != null ==> old(dc).sent == old(dc.sent) && old(dc).bufferedAtSend == old(dc.bufferedAtSend)
      ensures old(dc) != null ==> old(dc).lowThreshold == old(dc.lowThreshold) && old(dc).bufferedAmount == old(dc.bufferedAmount)
      ensures !hasPeer && dc == null && !connected && status == "Idle"
      ensures recvFiles == [] && sentFiles == [] && messages == []
      ensures sendProg == IDLE_PROGRESS && recvProg == IDLE_PROGRESS && recvName == NO_NAME
      ensures expected == old(expected) && received == old(received) && chunks == old(chunks)
    {
      if dc != null {
        dc.Close();
      }
      Forget();
    }

    /** The part of `reset` after the closes: the provider's own state. */
    method Forget()
      modifies this`dc, this`hasPeer, this`connected, this`status
      modifies this`recvFiles, this`sentFiles, this`messages, this`sendProg, this`recvProg, this`recvName
      ensures !hasPeer && dc == null && !connected && status == "Idle"
      ensures recvFiles == [] && sentFiles == [] && messages == []
      ensures sendProg == IDLE_PROGRESS && recvProg == IDLE_PROGRESS && recvName == NO_NAME
    {
      dc, hasPeer := null, false;
      connected, status := false, "Idle";
      recvFiles, sentFiles, messages := [], [], [];
      sendProg, recvProg, recvName := IDLE_PROGRESS, IDLE_PROGRESS, NO_NAME;
    }
  }
}

=== FILE: client_text.dfy ===
/** The pure string helpers of the clients: file-name sanitising, URL
    classification and normalisation, the base64url wrapper around
    `btoa`/`atob`, and the six-digit token rules (client/src/App.jsx and
    signalingtest/public/app.js). */
module ClientText {
  import opened Common

  // ---------------------------------------------------------------------
  // safeFilename (App.jsx)

  const FALLBACK_NAME := "received.bin"

  /** The characters of `/[\\/:*?"<>|\u0000-\u001F]/`. */
  predicate IsUnsafeFilenameChar(c: char) {
    c == '\\' || c == '/' || c == ':' || c == '*' || c == '?' || c == '"'
    || c == '<' || c == '>' || c == '|' || c as int <= 0x1F
  }

  /** No character the sanitiser rewrites. */
  predicate IsSafeName(r: string) {
    forall i :: 0 <= i < |r| ==> !IsUnsafeFilenameChar(r[i])
  }

  /** The regular-expression replacement: every unsafe character becomes `_`,
      every other character is kept. */
  function Sanitize(t: string): (r: string)
    ensures |r| == |t| && IsSafeName(r)
    ensures forall i :: 0 <= i < |r| ==> r[i] == if IsUnsafeFilenameChar(t[i]) then '_' else t[i]
  {
    seq(|t|, i requires 0 <= i < |t| => if IsUnsafeFilenameChar(t[i]) then '_' else t[i])
  }

  lemma FallbackIsSafe()
    ensures IsSafeName(FALLBACK_NAME)
  {
  }

  /** `safeFilename(name)`: the fallback for a blank name or `-`, otherwise
      the trimmed name, same length, with every unsafe character turned
      into `_`. The result is never blank, never `-`, and safe. */
  function SafeFilename(name: string): (r: string)
    ensures var t := Trim(name); t == [] || t == "-" ==> r == FALLBACK_NAME
    ensures var t := Trim(name); t != [] && t != "-" ==> r == Sanitize(t)
    ensures r != [] && r != "-" && IsSafeName(r)
  {
    FallbackIsSafe();
    var t := Trim(name);
    if t == [] || t == "-" then FALLBACK_NAME else Sanitize(t)
  }

  lemma SanitizeKeepsSafe(r: string)
    requires IsSafeName(r)
    ensures Sanitize(r) == r
  {
  }

  /** Sanitising a trimmed text keeps it trimmed: `_` is not whitespace. */
  lemma SanitizeKeepsTrimmed(t: string)
    requires t != [] && !IsWhitespace(t[0]) && !IsWhitespace(t[|t| - 1])
    ensures Trim(Sanitize(t)) == Sanitize(t)
  {
    var r := Sanitize(t);
    assert !IsWhitespace(r[0]) && !IsWhitespace(r[|r| - 1]);
    TrimmedIsFixed(r);
  }

  /** A sanitised name is already safe: sanitising it again changes nothing. */
  lemma SafeFilenameIdempotent(name: string)
    ensures SafeFilename(SafeFilename(name)) == SafeFilename(name)
  {
    var r := SafeFilename(name);
    var t := Trim(name);
    if t == [] || t == "-" {
      TrimmedIsFixed(FALLBACK_NAME);
    } else {
      SanitizeKeepsTrimmed(t);
    }
    SanitizeKeepsSafe(r);
  }

  // ---------------------------------------------------------------------
  // isProbablyURL and normalizeURL (App.jsx)

  /** ASCII lower-casing, which is all the `/i` flag does to the letters
      matched below. */
  function ToLower(c: char): char {
    if 'A' <= c <= 'Z' then (c as int + 32) as char else c
  }

  /** `/^www\./i`. */
  predicate StartsWithWww(t: string) {
    |t| >= 4 && ToLower(t[0]) == 'w' && ToLower(t[1]) == 'w' && ToLower(t[2]) == 'w' && t[3] == '.'
  }

  /** `/^www\.[^\s]+/i`: `www.` in any case followed by a non-space. */
  predicate LooksLikeWwwHost(t: string) {
    StartsWithWww(t) && |t| > 4 && !IsWhitespace(t[4])
  }

  /** `isProbablyURL(s)`: the trimmed text is non-empty and either parses as
      an absolute URL (the browser's `new URL`, given as `parsesAsURL`) or
      looks like a bare `www.` host. */
  function IsProbablyURL(s: string, parsesAsURL: string -> bool): (r: bool)
    ensures r <==> Trim(s) != [] && (parsesAsURL(Trim(s)) || LooksLikeWwwHost(Trim(s)))
  {
    var t := Trim(s);
    if t == [] then false
    else if parsesAsURL(t) then true
    else LooksLikeWwwHost(t)
  }

  /** `/^https?:\/\//i`. */
  predicate HasHttpScheme(t: string) {
    |t| >= 7 && ToLower(t[0]) == 'h' && ToLower(t[1]) == 't' && ToLower(t[2]) == 't' && ToLower(t[3]) == 'p'
    && ((t[4] == ':' && t[5] == '/' && t[6] == '/')
        || (|t| >= 8 && ToLower(t[4]) == 's' && t[5] == ':' && t[6] == '/' && t[7] == '/'))
  }

  /** `normalizeURL(s)`: the trimmed text, with `https://` prepended when
      it starts with `www.` and has no http(s) scheme. */
  function NormalizeURL(s: string): (r: string)
    ensures var t := Trim(s);
      r == if !HasHttpScheme(t) && StartsWithWww(t) then "https://" + t else t
  {
    var t := Trim(s);
    if t == [] then t
    else if HasHttpScheme(t) then t
    else if StartsWithWww(t) then "https://" + t
    else t
  }

  /** Normalising twice equals normalising once. */
  lemma NormalizeURLIdempotent(s: string)
    ensures NormalizeURL(NormalizeURL(s)) == NormalizeURL(s)
  {
    var t := Trim(s);
    TrimIdempotent(s);
    if t != [] && !HasHttpScheme(t) && StartsWithWww(t) {
      var r := "https://" + t;
      assert r[|r| - 1] == t[|t| - 1];
      TrimmedIsFixed(r);
    }
  }

  /** What `normalizeURL` returns for a URL-like text always starts with a
      scheme when the text was a bare `www.` host. */
  lemma NormalizeWwwHost(s: string, parsesAsURL: string -> bool)
    requires LooksLikeWwwHost(Trim(s))
    ensures IsProbablyURL(s, parsesAsURL)
    ensures HasHttpScheme(NormalizeURL(s))
  {
    var t := Trim(s);
  }

  // ---------------------------------------------------------------------
  // b64url / ub64url (App.jsx): the text transforms around btoa / atob

  predicate IsBase64Char(c: char) {
    'A' <= c <= 'Z' || 'a' <= c <= 'z' || '0' <= c <= '9' || c == '+' || c == '/'
  }

  /** Number of trailing `=`. */
  function PadCount(s: string): (n: nat)
    ensures n <= |s|
    ensures forall i :: |s| - n <= i < |s| ==> s[i] == '='
    ensures n < |s| ==> s[|s| - n - 1] != '='
  {
    if s != [] && s[|s| - 1] == '=' then PadCount(s[..|s| - 1]) + 1 else 0
  }

  /** A padded base64 text as in section 4 of RFC 4648, which `btoa` returns:
      alphabet characters, then at most two `=`, length a multiple of four. */
  predicate IsStandardBase64(b: string) {
    |b| % 4 == 0 && PadCount(b) <= 2 &&
    forall i :: 0 <= i < |b| - PadCount(b) ==> IsBase64Char(b[i])
  }

  function ToUrlChar(c: char): char {
    if c == '+' then '-' else if c == '/' then '_' else c
  }

  function FromUrlChar(c: char): char {
    if c == '-' then '+' else if c == '_' then '/' else c
  }

  /** `b64url`'s work after `btoa`: `+`→`-`, `/`→`_`, trailing `=` removed. */
  function ToBase64Url(b: string): (r: string)
    ensures |r| == |b| - PadCount(b)
    ensures forall i :: 0 <= i < |r| ==> r[i] == ToUrlChar(b[i])
  {
    var stripped := b[..|b| - PadCount(b)];
    seq(|stripped|, i requires 0 <= i < |stripped| => ToUrlChar(stripped[i]))
  }

  function FromUrlAlphabet(s: string): (r: string)
    ensures |r| == |s|
  {
    seq(|s|, i requires 0 <= i < |s| => FromUrlChar(s[i]))
  }

  /** The text `ub64url` hands to `atob`: the url alphabet mapped back and
      `=` appended up to a multiple of four. */
  function FromBase64Url(s: string): (r: string)
    ensures |r| % 4 == 0 && |s| <= |r| < |s| + 4
    ensures r[..|s|] == FromUrlAlphabet(s)
    ensures forall i :: |s| <= i < |r| ==> r[i] == '='
  {
    FromUrlAlphabet(s) + seq((4 - |s| % 4) % 4, _ => '=')
  }

  /** `ub64url(s)` up to the `atob` call: the `replace` calls, then the
      `while (s.length % 4) s += '='` loop. */
  method UnwrapBase64Url(s: string) returns (r: string)
    ensures r == FromBase64Url(s)
  {
    r := FromUrlAlphabet(s);
    while |r| % 4 != 0
      invariant |s| <= |r| <= |s| + (4 - |s| % 4) % 4
      invariant r[..|s|] == FromUrlAlphabet(s)
      invariant forall i :: |s| <= i < |r| ==> r[i] == '='
      decreases |s| + 4 - |r|
    {
      r := r + "=";
    }
  }

  /** `ub64url` undoes `b64url`: for every standard base64 text, the text
      handed to `atob` is the one `btoa` produced. */
  lemma Base64UrlRoundTrip(b: string)
    requires IsStandardBase64(b)
    ensures FromBase64Url(ToBase64Url(b)) == b
  {
    var p := PadCount(b);
    var u := ToBase64Url(b);
    var r := FromBase64Url(u);
    assert (4 - |u| % 4) % 4 == p;
    forall i | 0 <= i < |b| ensures r[i] == b[i] {
      if i < |u| {
        assert r[i] == FromUrlAlphabet(u)[i] == FromUrlChar(ToUrlChar(b[i]));
      }
    }
  }

  // ---------------------------------------------------------------------
  // Six-digit tokens (TOKEN_RE in App.jsx, isDigits in app.js)

  /** `/^\d{6}$/` (App.jsx `TOKEN_RE`). */
  predicate IsToken(s: string) {
    |s| == 6 && AllAsciiDigits(s)
  }

  /** `isDigits(s)`, which tests `s || ''` against `/^[0-9]{6}$/` (app.js). */
  predicate IsDigits(s: Option<string>) {
    IsToken(s.GetOr(""))
  }

  function KeepDigits(v: string): (r: string)
    ensures |r| <= |v| && AllAsciiDigits(r)
    ensures AllAsciiDigits(v) ==> r == v
  {
    if v == [] then []
    else if IsAsciiDigit(v[0]) then [v[0]] + KeepDigits(v[1..])
    else KeepDigits(v[1..])
  }

  /** `replace(/\D/g, '')` on one character: a digit stays, anything else goes. */
  lemma KeepDigitsSingle(c: char)
    ensures KeepDigits([c]) == if IsAsciiDigit(c) then [c] else []
  {
    assert [c][1..] == [];
  }

  /** The filter works character by character: the digits of a concatenation
      are the digits of each part, in order. */
  lemma {:induction false} KeepDigitsAppend(a: string, b: string)
    ensures KeepDigits(a + b) == KeepDigits(a) + KeepDigits(b)
    decreases |a|
  {
    if a == [] {
      assert a + b == b;
    } else {
      assert (a + b)[0] == a[0] && (a + b)[1..] == a[1..] + b;
      KeepDigitsAppend(a[1..], b);
    }
  }

  /** `v.replace(/\D/g, '').slice(0, 6)`: the token input filter. */
  function FilterToken(v: string): (r: string)
    ensures |r| <= 6 && AllAsciiDigits(r)
    ensures |r| == Min(|KeepDigits(v)|, 6) && r == KeepDigits(v)[..|r|]
  {
    var d := KeepDigits(v);
    if |d| <= 6 then d else d[..6]
  }

  /** The filter is idempotent and leaves a typed token as it is. */
  lemma FilterTokenIdempotent(v: string)
    ensures FilterToken(FilterToken(v)) == FilterToken(v)
    ensures IsToken(v) ==> FilterToken(v) == v
  {
  }

  /** The two clients' token tests agree, a missing value is not a token,
      and a token is exactly a six-character text the input filter keeps. */
  lemma TokenChecks(s: string)
    ensures IsDigits(Some(s)) <==> IsToken(s)
    ensures !IsDigits(None)
    ensures IsToken(s) <==> |s| == 6 && FilterToken(s) == s
  {
    FilterTokenIdempotent(s);
  }

  /** What typing into the token box does. */
  datatype TokenInput = TokenInput(value: string, join: bool)

  /** The input handlers (app.js `input` listener, App.jsx `JoinPage`
      `onChange`): the box shows the filtered value, and a join is started
      exactly when it is a complete six-digit token. */
  function OnTokenInput(v: string): (r: TokenInput)
    ensures r.value == FilterToken(v)
    ensures r.join <==> IsToken(r.value)
    ensures r.join <==> |KeepDigits(v)| >= 6
  {
    var t := FilterToken(v);
    TokenInput(t, IsDigits(Some(t)))
  }

  /** What `bootFromURL` does with the query parameters `t`, `role`, `auto`. */
  datatype Boot = Ignore | Fill(token: string) | FillAndJoin(token: string)

  /** bootFromURL (app.js): a six-digit `t` fills the token box; a join
      starts only for `role=join` and `auto=1` as well. */
  function BootFromURL(t: Option<string>, role: Option<string>, auto: Option<string>): (r: Boot)
    ensures r.FillAndJoin? <==> IsDigits(t) && role == Some("join") && auto == Some("1")
    ensures r.Fill? <==> IsDigits(t) && !(role == Some("join") && auto == Some("1"))
    ensures !r.Ignore? ==> Some(r.token) == t
  {
    if !IsDigits(t) then Ignore
    else if role == Some("join") && auto == Some("1") then FillAndJoin(t.value)
    else Fill(t.value)
  }
}

=== FILE: common.dfy ===
/** Shared vocabulary: optional values, bytes, and the JavaScript string
    primitives (`trim`, `\s`, `startsWith`, `\d`) the rest of the model uses.
    Characters are Unicode scalar values; JavaScript strings are UTF-16 code
    units, which only matters for characters outside the Basic Multilingual
    Plane, none of which any rule below singles out. */
module Common {

  /** `None` stands for JavaScript's `null` and `undefined`. */
  datatype Option<+T> = None | Some(value: T) {
    function GetOr(default: T): T {
      match this
      case Some(v) => v
      case None => default
    }
  }

  type byte = bv8

  /** The code points of ECMAScript's WhiteSpace and LineTerminator
      productions: what `String.prototype.trim` strips and `\s` matches. */
  predicate IsWhitespace(c: char) {
    c == '\t' || c == '\n' || c == '\U{B}' || c == '\U{C}' || c == '\r' || c == ' '
    || c == '\U{A0}' || c == '\U{1680}' || ('\U{2000}' <= c <= '\U{200A}')
    || c == '\U{2028}' || c == '\U{2029}' || c == '\U{202F}' || c == '\U{205F}'
    || c == '\U{3000}' || c == '\U{FEFF}'
  }

  predicate IsAsciiDigit(c: char) {
    '0' <= c <= '9'
  }

  predicate AllAsciiDigits(s: string) {
    forall i :: 0 <= i < |s| ==> IsAsciiDigit(s[i])
  }

  /** `s.startsWith(p)`. */
  predicate HasPrefix(s: string, p: string) {
    |p| <= |s| && s[..|p|] == p
  }

  /** The em dash both clients show before any file name is known. */
  const NO_NAME := "\U{2014}"

  function Min(a: int, b: int): int {
    if a <= b then a else b
  }

  /** Leading whitespace removed (`trimStart`). */
  function TrimStart(s: string): (r: string)
    ensures |r| <= |s|
    ensures r == [] || !IsWhitespace(r[0])
  {
    if s != [] && IsWhitespace(s[0]) then TrimStart(s[1..]) else s
  }

  /** Trailing whitespace removed (`trimEnd`). */
  function TrimEnd(s: string): (r: string)
    ensures |r| <= |s| && r == s[..|r|]
    ensures r == [] || !IsWhitespace(r[|r| - 1])
  {
    if s != [] && IsWhitespace(s[|s| - 1]) then TrimEnd(s[..|s| - 1]) else s
  }

  /** `String.prototype.trim`: whitespace dropped from both ends. */
  function Trim(s: string): (r: string)
    ensures |r| <= |s|
    ensures r == [] || (!IsWhitespace(r[0]) && !IsWhitespace(r[|r| - 1]))
  {
    TrimEnd(TrimStart(s))
  }

  predicate AllWhitespace(s: string) {
    forall k :: 0 <= k < |s| ==> IsWhitespace(s[k])
  }

  lemma {:induction false} TrimStartBlank(s: string)
    ensures TrimStart(s) == [] <==> AllWhitespace(s)
  {
    if s != [] && IsWhitespace(s[0]) {
      TrimStartBlank(s[1..]);
      assert AllWhitespace(s) <==> AllWhitespace(s[1..]) by {
        if AllWhitespace(s[1..]) {
          forall k | 1 <= k < |s| ensures IsWhitespace(s[k]) { assert s[k] == s[1..][k - 1]; }
        }
      }
    }
  }

  lemma {:induction false} TrimEndBlank(s: string)
    ensures TrimEnd(s) == [] <==> AllWhitespace(s)
  {
    if s != [] && IsWhitespace(s[|s| - 1]) {
      var init := s[..|s| - 1];
      TrimEndBlank(init);
      assert AllWhitespace(s) <==> AllWhitespace(init) by {
        if AllWhitespace(init) {
          forall k | 0 <= k < |s| - 1 ensures IsWhitespace(s[k]) { assert s[k] == init[k]; }
        }
      }
    }
  }

  /** `trimStart` removes a whitespace prefix and nothing else. */
  lemma {:induction false} TrimStartSlice(s: string)
    ensures var r := TrimStart(s); r == s[|s| - |r|..] && AllWhitespace(s[..|s| - |r|])
  {
    if s != [] && IsWhitespace(s[0]) {
      TrimStartSlice(s[1..]);
      var r := TrimStart(s[1..]);
      assert s[1..][|s| - 1 - |r|..] == s[|s| - |r|..];
      forall k | 0 <= k < |s| - |r| ensures IsWhitespace(s[k]) {
        if k > 0 { assert s[k] == s[1..][..|s| - 1 - |r|][k - 1]; }
      }
    }
  }

  /** `trimEnd` removes a whitespace suffix and nothing else. */
  lemma {:induction false} TrimEndSlice(s: string)
    ensures var r := TrimEnd(s); r == s[..|r|] && AllWhitespace(s[|r|..])
  {
    if s != [] && IsWhitespace(s[|s| - 1]) {
      var init := s[..|s| - 1];
      TrimEndSlice(init);
      var r := TrimEnd(init);
      forall k | |r| <= k < |s| ensures IsWhitespace(s[k]) {
        if k < |s| - 1 { assert s[k] == init[|r|..][k - |r|]; }
      }
    }
  }

  /** `trim` returns the slice of the text left once a whitespace prefix and
      a whitespace suffix are removed. */
  lemma TrimSlice(s: string)
    ensures exists i, j :: 0 <= i <= j <= |s| && Trim(s) == s[i..j] && AllWhitespace(s[..i]) && AllWhitespace(s[j..])
  {
    TrimStartSlice(s);
    var t := TrimStart(s);
    TrimEndSlice(t);
    var r := TrimEnd(t);
    var i := |s| - |t|;
    assert r == s[i..i + |r|] && s[i + |r|..] == t[|r|..];
  }

  /** The trimmed text is empty exactly when the text is all whitespace. */
  lemma TrimBlank(s: string)
    ensures Trim(s) == [] <==> AllWhitespace(s)
  {
    TrimStartBlank(s);
    var t := TrimStart(s);
    TrimEndBlank(t);
    assert t == [] || !AllWhitespace(t);
  }

  /** A text that neither starts nor ends with whitespace is its own trim. */
  lemma TrimmedIsFixed(s: string)
    requires s == [] || (!IsWhitespace(s[0]) && !IsWhitespace(s[|s| - 1]))
    ensures Trim(s) == s
  {
  }

  /** Trimming twice is trimming once. */
  lemma TrimIdempotent(s: string)
    ensures Trim(Trim(s)) == Trim(s)
  {
    TrimmedIsFixed(Trim(s));
  }

  /** In-order concatenation of byte chunks (what `new Blob(chunks)` holds). */
  function Flatten(chunks: seq<seq<byte>>): seq<byte> {
    if chunks == [] then [] else Flatten(chunks[..|chunks| - 1]) + chunks[|chunks| - 1]
  }

  lemma {:induction false} FlattenCons(c: seq<byte>, cs: seq<seq<byte>>)
    ensures Flatten([c] + cs) == c + Flatten(cs)
  {
    if cs != [] {
      var last := cs[|cs| - 1];
      assert ([c] + cs)[..|[c] + cs| - 1] == [c] + cs[..|cs| - 1];
      FlattenCons(c, cs[..|cs| - 1]);
    }
  }
}

=== FILE: framing.dfy ===
/** The data-channel protocol shared by both clients: the frame vocabulary
    (`META:<json>`, binary chunks, `EOF`, `MSG:<json>`), how a text frame is
    routed by its prefix, how a file is cut into chunks, how the receiver
    accumulates them, and the abstract channel the sender writes to. */
module Framing {
  import opened Common

  /** The JSON of a `META:` frame, `{name, size}`; a missing name is `""`. */
  datatype MetaInfo = MetaInfo(name: string, size: int)

  /** The JSON of a `MSG:` frame, `{kind, text}`. */
  datatype MsgInfo = MsgInfo(kind: Option<string>, text: Option<string>)

  /** One message event on the channel, its JSON already parsed: `None`
      stands for JSON that `JSON.parse` (or the field access after it)
      rejects. */
  datatype Frame =
    | Meta(meta: Option<MetaInfo>)   // text starting "META:"
    | Msg(msg: Option<MsgInfo>)      // text starting "MSG:"
    | Eof                            // text exactly "EOF"
    | OtherText(text: string)        // any other text
    | Binary(data: seq<byte>)        // an ArrayBuffer (or Blob) payload
    | Unreadable                     // neither text nor bytes

  // ---------------------------------------------------------------------
  // Routing a text frame

  datatype TextRoute = ToMsg(json: string) | ToMeta(json: string) | ToEof | ToNothing

  /** App.jsx tests a text frame for the `MSG:` prefix first, then `META:`,
      then exact equality with `EOF`; anything else goes nowhere. */
  function RouteText(s: string): (r: TextRoute)
    ensures r.ToMsg? <==> HasPrefix(s, "MSG:")
    ensures r.ToMsg? ==> r.json == s[4..]
    ensures r.ToMeta? <==> !HasPrefix(s, "MSG:") && HasPrefix(s, "META:")
    ensures r.ToMeta? ==> r.json == s[5..]
    ensures r.ToEof? <==> s == "EOF"
    ensures r.ToNothing? <==> !HasPrefix(s, "MSG:") && !HasPrefix(s, "META:") && s != "EOF"
  {
    if HasPrefix(s, "MSG:") then ToMsg(s[4..])
    else if HasPrefix(s, "META:") then ToMeta(s[5..])
    else if s == "EOF" then ToEof
    else ToNothing
  }

  /** A text frame as App.jsx's handler sees it, given the JSON parsers. */
  function DecodeText(s: string, parseMeta: string -> Option<MetaInfo>, parseMsg: string -> Option<MsgInfo>): Frame {
    match RouteText(s)
    case ToMsg(j) => Msg(parseMsg(j))
    case ToMeta(j) => Meta(parseMeta(j))
    case ToEof => Eof
    case ToNothing => OtherText(s)
  }

  /** The prefixes are unambiguous: what a sender writes as `MSG:`+json,
      `META:`+json or `EOF` is routed back to the same kind with the same
      JSON, whatever that JSON is. */
  lemma {:induction false} ControlFramesRouting(metaJson: string, msgJson: string)
    ensures RouteText("META:" + metaJson) == ToMeta(metaJson)
    ensures RouteText("MSG:" + msgJson) == ToMsg(msgJson)
    ensures RouteText("EOF") == ToEof
  {
    var a := "META:" + metaJson;
    assert a[1] == 'E';
    assert !HasPrefix(a, "MSG:");
    assert a[..5] == "META:" && a[5..] == metaJson;
    var b := "MSG:" + msgJson;
    assert b[..4] == "MSG:" && b[4..] == msgJson;
    assert !HasPrefix("EOF", "MSG:") && !HasPrefix("EOF", "META:");
  }

  /** Hence a control frame whose JSON parses is decoded to the payload the
      sender wrote. */
  lemma ControlFramesRoundTrip(
    metaJson: string, msgJson: string, m: MetaInfo, g: MsgInfo,
    parseMeta: string -> Option<MetaInfo>, parseMsg: string -> Option<MsgInfo>)
    requires parseMeta(metaJson) == Some(m) && parseMsg(msgJson) == Some(g)
    ensures DecodeText("META:" + metaJson, parseMeta, parseMsg) == Meta(Some(m))
    ensures DecodeText("MSG:" + msgJson, parseMeta, parseMsg) == Msg(Some(g))
    ensures DecodeText("EOF", parseMeta, parseMsg) == Eof
  {
    ControlFramesRouting(metaJson, msgJson);
  }

  // ---------------------------------------------------------------------
  // Cutting a file into chunks

  /** App.jsx sends 16 KiB chunks, signalingtest/public/app.js 64 KiB. */
  const APP_CHUNK: nat := 16 * 1024
  const TEST_CHUNK: nat := 64 * 1024

  /** The buffered-amount high-water mark, `1 << 20`. */
  const HIGH_WATER: nat := 1048576

  /** The slices `file.slice(offset, offset + size)` from `offset` on, each
      following slice starting where the previous one ended. */
  function ChunksFrom(data: seq<byte>, offset: nat, size: nat): seq<seq<byte>>
    requires size > 0 && offset <= |data|
    decreases |data| - offset
  {
    if offset == |data| then []
    else
      var end := Min(offset + size, |data|);
      [data[offset..end]] + ChunksFrom(data, end, size)
  }

  /** The chunks concatenate back to the file from `offset` on. */
  lemma {:induction false} ChunksCover(data: seq<byte>, offset: nat, size: nat)
    requires size > 0 && offset <= |data|
    ensures Flatten(ChunksFrom(data, offset, size)) == data[offset..]
    decreases |data| - offset
  {
    if offset < |data| {
      var end := Min(offset + size, |data|);
      ChunksCover(data, end, size);
      FlattenCons(data[offset..end], ChunksFrom(data, end, size));
      assert data[offset..end] + data[end..] == data[offset..];
    }
  }

  /** Chunk `k` is the slice `[offset + k*size, min(offset + (k+1)*size, |data|))`;
      there are `ceil((|data| - offset) / size)` of them. */
  lemma {:induction false} ChunkAt(data: seq<byte>, offset: nat, size: nat, k: nat)
    requires size > 0 && offset <= |data|
    requires k < |ChunksFrom(data, offset, size)|
    ensures offset + k * size < |data|
    ensures ChunksFrom(data, offset, size)[k] == data[offset + k * size..Min(offset + (k + 1) * size, |data|)]
    decreases |data| - offset
  {
    var end := Min(offset + size, |data|);
    if k > 0 {
      assert end == offset + size;
      ChunkAt(data, end, size, k - 1);
      assert offset + k * size == end + (k - 1) * size;
      assert offset + (k + 1) * size == end + k * size;
    }
  }

  /** How many chunks there are: enough to cover the rest of the file, and
      one fewer would not be. */
  lemma {:induction false} ChunkCount(data: seq<byte>, offset: nat, size: nat)
    requires size > 0 && offset <= |data|
    ensures var n := |ChunksFrom(data, offset, size)|;
      (n - 1) * size < |data| - offset <= n * size || (n == 0 && offset == |data|)
    decreases |data| - offset
  {
    if offset < |data| {
      var end := Min(offset + size, |data|);
      ChunkCount(data, end, size);
      var m := |ChunksFrom(data, end, size)|;
      assert (m + 1) * size == m * size + size;
      assert m * size == (m - 1) * size + size;
    }
  }

  /** Every chunk is non-empty and at most `size` bytes; all but the last
      are exactly `size`. */
  lemma {:induction false} ChunkSizes(data: seq<byte>, offset: nat, size: nat)
    requires size > 0 && offset <= |data|
    ensures var cs := ChunksFrom(data, offset, size);
      forall k :: 0 <= k < |cs| ==> 0 < |cs[k]| <= size && (k < |cs| - 1 ==> |cs[k]| == size)
    decreases |data| - offset
  {
    if offset < |data| {
      var end := Min(offset + size, |data|);
      ChunkSizes(data, end, size);
      var cs := ChunksFrom(data, offset, size);
      if |ChunksFrom(data, end, size)| > 0 {
        assert end == offset + size;
      }
      forall k | 0 <= k < |cs| ensures 0 < |cs[k]| <= size && (k < |cs| - 1 ==> |cs[k]| == size) {
        if k > 0 { assert cs[k] == ChunksFrom(data, end, size)[k - 1]; }
      }
    }
  }

  /** A 100000-byte file in 16 KiB chunks: six full chunks and one of 1696 bytes. */
  lemma ScenarioHundredThousand(data: seq<byte>)
    requires |data| == 100000
    ensures var cs := ChunksFrom(data, 0, APP_CHUNK);
      |cs| == 7 && |cs[6]| == 1696 && forall k :: 0 <= k < 6 ==> |cs[k]| == 16384
  {
    var cs := ChunksFrom(data, 0, APP_CHUNK);
    ChunkCount(data, 0, APP_CHUNK);
    ChunkSizes(data, 0, APP_CHUNK);
    assert |cs| == 7;
    ChunkAt(data, 0, APP_CHUNK, 6);
  }

  /** One binary frame per chunk, in order. */
  function Binaries(cs: seq<seq<byte>>): seq<Frame> {
    if cs == [] then [] else [Binary(cs[0])] + Binaries(cs[1..])
  }

  lemma {:induction false} BinariesAppend(cs: seq<seq<byte>>, c: seq<byte>)
    ensures Binaries(cs + [c]) == Binaries(cs) + [Binary(c)]
    decreases |cs|
  {
    if cs == [] {
      assert cs + [c] == [c];
    } else {
      assert (cs + [c])[1..] == cs[1..] + [c];
      BinariesAppend(cs[1..], c);
    }
  }

  /** One turn of the sender's loop moves the next chunk from what is left
      to what is sent. */
  lemma StreamStep(done: seq<seq<byte>>, data: seq<byte>, offset: nat, chunk: nat)
    requires chunk > 0 && offset < |data|
    ensures var end := Min(offset + chunk, |data|);
      done + ChunksFrom(data, offset, chunk) == (done + [data[offset..end]]) + ChunksFrom(data, end, chunk)
      && Binaries(done + [data[offset..end]]) == Binaries(done) + [Binary(data[offset..end])]
  {
    var end := Min(offset + chunk, |data|);
    BinariesAppend(done, data[offset..end]);
    assert done + ([data[offset..end]] + ChunksFrom(data, end, chunk))
        == (done + [data[offset..end]]) + ChunksFrom(data, end, chunk);
  }

  /** What a sender writes for one file: `META{name, size}`, the chunks in
      order, `EOF`. */
  function TransferFrames(name: string, data: seq<byte>, size: nat): seq<Frame>
    requires size > 0
  {
    [Meta(Some(MetaInfo(name, |data|)))] + Binaries(ChunksFrom(data, 0, size)) + [Eof]
  }

  // ---------------------------------------------------------------------
  // The receiver's accumulation state

  /** The closure variables `expected`, `received`, `chunks` of `wireRecvChannel`. */
  datatype Accumulator = Accumulator(expected: int, received: int, chunks: seq<seq<byte>>)

  /** `received` counts exactly the bytes held in `chunks`. */
  predicate Consistent(a: Accumulator) {
    a.received == |Flatten(a.chunks)|
  }

  /** What one frame does to the accumulation state: `META` resets it to the
      declared size, a binary frame is appended and counted, everything else
      (`EOF` included) leaves it as it is. */
  function Accumulate(a: Accumulator, f: Frame): Accumulator {
    match f
    case Meta(Some(m)) => Accumulator(m.size, 0, [])
    case Binary(d) => Accumulator(a.expected, a.received + |d|, a.chunks + [d])
    case _ => a
  }

  /** Every frame keeps `received` equal to the bytes held in `chunks`. */
  lemma AccumulateConsistent(a: Accumulator, f: Frame)
    requires Consistent(a)
    ensures Consistent(Accumulate(a, f))
  {
    if f.Binary? {
      assert (a.chunks + [f.data])[..|a.chunks|] == a.chunks;
    }
  }

  function AccumulateAll(a: Accumulator, fs: seq<Frame>): Accumulator
    decreases |fs|
  {
    if fs == [] then a else AccumulateAll(Accumulate(a, fs[0]), fs[1..])
  }

  lemma {:induction false} AccumulateAllAppend(a: Accumulator, xs: seq<Frame>, ys: seq<Frame>)
    ensures AccumulateAll(a, xs + ys) == AccumulateAll(AccumulateAll(a, xs), ys)
    decreases |xs|
  {
    if xs != [] {
      assert (xs + ys)[1..] == xs[1..] + ys;
      AccumulateAllAppend(Accumulate(a, xs[0]), xs[1..], ys);
    } else {
      assert xs + ys == ys;
    }
  }

  /** Binary frames append their payloads in arrival order. */
  lemma {:induction false} AccumulateBinaries(a: Accumulator, cs: seq<seq<byte>>)
    ensures AccumulateAll(a, Binaries(cs)) ==
      Accumulator(a.expected, a.received + |Flatten(cs)|, a.chunks + cs)
    decreases |cs|
  {
    if cs == [] {
      assert a.chunks + cs == a.chunks;
    } else {
      var fs := Binaries(cs);
      var b := Accumulator(a.expected, a.received + |cs[0]|, a.chunks + [cs[0]]);
      assert fs[0] == Binary(cs[0]) && fs[1..] == Binaries(cs[1..]);
      assert AccumulateAll(a, fs) == AccumulateAll(b, Binaries(cs[1..]));
      AccumulateBinaries(b, cs[1..]);
      FlattenCons(cs[0], cs[1..]);
      assert [cs[0]] + cs[1..] == cs;
      assert a.chunks + [cs[0]] + cs[1..] == a.chunks + cs;
    }
  }

  /** End to end: whatever the receiver held before, the frames a sender
      writes for a file leave it holding exactly that file's bytes, with
      `expected` and `received` both equal to its size. */
  lemma TransferRoundTrip(a: Accumulator, name: string, data: seq<byte>, size: nat)
    requires size > 0
    ensures var b := AccumulateAll(a, TransferFrames(name, data, size));
      b.expected == |data| && b.received == |data| && Flatten(b.chunks) == data && Consistent(b)
  {
    var cs := ChunksFrom(data, 0, size);
    var meta := [Meta(Some(MetaInfo(name, |data|)))];
    AccumulateAllAppend(a, meta + Binaries(cs), [Eof]);
    AccumulateAllAppend(a, meta, Binaries(cs));
    var reset := Accumulator(|data|, 0, []);
    assert AccumulateAll(a, meta) == reset;
    AccumulateBinaries(reset, cs);
    ChunksCover(data, 0, size);
    assert [] + cs == cs;
  }

  /** A `META` arriving before the previous `EOF` discards the partial file:
      the state afterwards does not depend on anything received before. */
  lemma MetaDiscardsPartial(a: Accumulator, earlier: seq<Frame>, m: MetaInfo, later: seq<Frame>)
    ensures AccumulateAll(a, earlier + [Meta(Some(m))] + later) ==
            AccumulateAll(Accumulator(m.size, 0, []), later)
  {
    AccumulateAllAppend(a, earlier + [Meta(Some(m))], later);
    AccumulateAllAppend(a, earlier, [Meta(Some(m))]);
  }

  // ---------------------------------------------------------------------
  // The channel a sender writes to

  /** A `File` chosen for sending: its name and its bytes. */
  datatype FileBlob = FileBlob(name: string, data: seq<byte>)

  /** `{hidden, max, value}` of a progress bar (a React state object in
      App.jsx, a `<progress>` element in app.js). */
  datatype Progress = Progress(hidden: bool, max: int, value: int)

  /** `max = size || 1`: a bar never has a zero maximum. */
  function BarMax(size: int): (m: int)
    ensures m != 0 && (size != 0 ==> m == size)
  {
    if size == 0 then 1 else size
  }

  /** Bytes a frame adds to the transport's buffered amount in this model. */
  function QueuedBytes(f: Frame): nat {
    if f.Binary? then |f.data| else 0
  }

  /** An RTCDataChannel as the senders use it: `readyState === 'open'`,
      `bufferedAmount`, `bufferedAmountLowThreshold`, and the frames handed
      to `send` in order, each with the buffered amount seen when it was sent. */
  class Channel {
    var open: bool
    var bufferedAmount: nat
    var lowThreshold: nat
    var sent: seq<Frame>
    var bufferedAtSend: seq<nat>

    ghost predicate Valid()
      reads this
    {
      |bufferedAtSend| == |sent|
    }

    constructor (open: bool)
      ensures Valid() && this.open == open
      ensures bufferedAmount == 0 && lowThreshold == 0 && sent == [] && bufferedAtSend == []
    {
      this.open := open;
      bufferedAmount, lowThreshold := 0, 0;
      sent, bufferedAtSend := [], [];
    }

    /** `send(frame)`: the frame is queued behind those already sent. */
    method Send(f: Frame)
      requires Valid()
      modifies this
      ensures Valid()
      ensures sent == old(sent) + [f] && bufferedAtSend == old(bufferedAtSend) + [old(bufferedAmount)]
      ensures bufferedAmount == old(bufferedAmount) + QueuedBytes(f)
      ensures open == old(open) && lowThreshold == old(lowThreshold)
    {
      sent := sent + [f];
      bufferedAtSend := bufferedAtSend + [bufferedAmount];
      bufferedAmount := bufferedAmount + QueuedBytes(f);
    }

    /** Awaiting `bufferedamountlow`: the transport drains some of its
        buffer, by an amount the model does not fix. */
    method AwaitBufferedAmountLow()
      requires bufferedAmount > lowThreshold
      modifies this
      ensures bufferedAmount < old(bufferedAmount)
      ensures open == old(open) && lowThreshold == old(lowThreshold)
      ensures sent == old(sent) && bufferedAtSend == old(bufferedAtSend)
    {
      var drained: nat :| drained < bufferedAmount;
      bufferedAmount := drained;
    }

    /** The senders' inner wait loop: while more than the threshold is
        buffered, await `bufferedamountlow`. Afterwards the buffer is at or
        below the threshold and nothing else has changed. */
    method WaitBelowThreshold()
      modifies this
      ensures bufferedAmount <= lowThreshold
      ensures open == old(open) && lowThreshold == old(lowThreshold)
      ensures sent == old(sent) && bufferedAtSend == old(bufferedAtSend)
    {
      while bufferedAmount > lowThreshold
        invariant open == old(open) && lowThreshold == old(lowThreshold)
        invariant sent == old(sent) && bufferedAtSend == old(bufferedAtSend)
        decreases bufferedAmount
      {
        AwaitBufferedAmountLow();
      }
    }

    /** One step of the senders' loop: wait for the buffer to drain to the
        threshold, then send `file.slice(offset, offset + chunk)`; `end` is
        the offset after it. */
    method SendSlice(data: seq<byte>, offset: nat, chunk: nat) returns (end: nat)
      requires Valid() && offset < |data| && chunk > 0
      modifies this
      ensures end == Min(offset + chunk, |data|) && offset < end <= |data|
      ensures Valid() && open == old(open) && lowThreshold == old(lowThreshold)
      ensures sent == old(sent) + [Binary(data[offset..end])]
      ensures bufferedAtSend[..|old(sent)|] == old(bufferedAtSend)
      ensures bufferedAtSend[|old(sent)|] <= lowThreshold
    {
      end := Min(offset + chunk, |data|);
      WaitBelowThreshold();
      Send(Binary(data[offset..end]));
    }

    /** The senders' loop over the file: chunk after chunk of `chunk`
        bytes, each sent only once the buffer has drained to the threshold.
        `progress` is the offset after each step, the value the sender's
        progress bar is given. */
    method StreamChunks(data: seq<byte>, chunk: nat) returns (ghost progress: seq<int>)
      requires Valid() && chunk > 0 && lowThreshold == HIGH_WATER
      modifies this
      ensures Valid() && open == old(open) && lowThreshold == HIGH_WATER
      ensures sent == old(sent) + Binaries(ChunksFrom(data, 0, chunk))
      ensures FlowControlled(sent, bufferedAtSend, old(|sent|))
      ensures ProgressOk(progress, |data|) && |progress| > 0
      ensures progress[0] == 0 && progress[|progress| - 1] == |data|
      ensures |progress| == |ChunksFrom(data, 0, chunk)| + 1 && ProgressAtOffsets(progress, chunk, |data|)
      ensures bufferedAtSend[..|old(sent)|] == old(bufferedAtSend)
    {
      ghost var head := sent;
      ghost var done: seq<seq<byte>> := [];
      var offset := 0;
      progress := [0];
      while offset < |data|
        invariant offset <= |data| && Valid() && open == old(open) && lowThreshold == HIGH_WATER
        invariant sent == head + Binaries(done)
        invariant done + ChunksFrom(data, offset, chunk) == ChunksFrom(data, 0, chunk)
        invariant FlowControlled(sent, bufferedAtSend, |head|)
        invariant |head| <= |bufferedAtSend| && bufferedAtSend[..|head|] == old(bufferedAtSend)
        invariant ProgressOk(progress, offset) && |progress| > 0
        invariant progress[0] == 0 && progress[|progress| - 1] == offset
        invariant |progress| == |done| + 1 && ProgressAtOffsets(progress, chunk, |data|)
        decreases |data| - offset
      {
        ghost var sent0, levels0 := sent, bufferedAtSend;
        var end := SendSlice(data, offset, chunk);
        FlowStep(sent0, levels0, sent, bufferedAtSend, |head|);
        PrefixOfPrefix(levels0, bufferedAtSend, |head|);
        ProgressStep(progress, offset, end);
        ProgressOffsetsStep(progress, chunk, |data|);
        StreamStep(done, data, offset, chunk);
        assert sent == head + (Binaries(done) + [Binary(data[offset..end])]);
        done := done + [data[offset..end]];
        offset := end;
        progress := progress + [offset];
      }
      assert done == ChunksFrom(data, 0, chunk);
    }

    /** The senders' transfer of one file: `META{name, size}`, the
        threshold set to 1 MiB, the chunks, then `EOF`. */
    method StreamFile(name: string, data: seq<byte>, chunk: nat) returns (ghost progress: seq<int>)
      requires Valid() && chunk > 0
      modifies this
      ensures Valid() && open == old(open) && lowThreshold == HIGH_WATER
      ensures sent == old(sent) + TransferFrames(name, data, chunk)
      ensures FlowControlled(sent, bufferedAtSend, old(|sent|))
      ensures ProgressOk(progress, |data|) && |progress| > 0
      ensures progress[0] == 0 && progress[|progress| - 1] == |data|
      ensures |progress| == |ChunksFrom(data, 0, chunk)| + 1 && ProgressAtOffsets(progress, chunk, |data|)
      ensures bufferedAtSend[..|old(sent)|] == old(bufferedAtSend)
    {
      Send(Meta(Some(MetaInfo(name, |data|))));
      lowThreshold := HIGH_WATER;
      ghost var sent0, levels0 := sent, bufferedAtSend;
      progress := StreamChunks(data, chunk);
      ghost var sent1, levels1 := sent, bufferedAtSend;
      Send(Eof);
      assert sent == (old(sent) + [Meta(Some(MetaInfo(name, |data|)))]) + Binaries(ChunksFrom(data, 0, chunk)) + [Eof];
      FlowExtend(sent, bufferedAtSend, old(|sent|), |sent0|);
    }

    /** `close()`. */
    method Close()
      modifies this
      ensures !open
      ensures bufferedAmount == old(bufferedAmount) && lowThreshold == old(lowThreshold)
      ensures sent == old(sent) && bufferedAtSend == old(bufferedAtSend)
    {
      open := false;
    }
  }

  /** Sending one more frame at a level within the mark keeps the sends flow
      controlled. */
  lemma FlowStep(sent: seq<Frame>, levels: seq<nat>, sent2: seq<Frame>, levels2: seq<nat>, from: nat)
    requires FlowControlled(sent, levels, from) && |levels| == |sent|
    requires |sent2| == |sent| + 1 && sent2[..|sent|] == sent
    requires |levels2| == |sent2| && levels2[..|sent|] == levels && levels2[|sent|] <= HIGH_WATER
    ensures FlowControlled(sent2, levels2, from)
  {
    forall i | from <= i < |sent2| && i < |levels2| && sent2[i].Binary?
      ensures levels2[i] <= HIGH_WATER
    {
      if i < |sent| {
        assert sent2[i] == sent[i] && levels2[i] == levels[i];
      }
    }
  }

  /** A prefix of a prefix is the shorter prefix. */
  lemma PrefixOfPrefix(xs: seq<nat>, ys: seq<nat>, n: nat)
    requires n <= |xs| <= |ys| && ys[..|xs|] == xs
    ensures ys[..n] == xs[..n]
  {
  }

  /** Frames before `mid` that are not binary, or a prefix that was already
      flow controlled, extend flow control back from `mid` to `from`. */
  lemma FlowExtend(sent: seq<Frame>, levels: seq<nat>, from: nat, mid: nat)
    requires from <= mid <= |sent| && FlowControlled(sent, levels, mid)
    requires forall i :: from <= i < mid ==> !sent[i].Binary?
    ensures FlowControlled(sent, levels, from)
  {
  }

  /** Every binary frame of `sent` from index `from` on went out while the
      buffered amount (`levels`, recorded at each send) was at or below the
      high-water mark. */
  predicate FlowControlled(sent: seq<Frame>, levels: seq<nat>, from: nat) {
    forall i :: from <= i < |sent| && i < |levels| && sent[i].Binary? ==> levels[i] <= HIGH_WATER
  }

  /** Progress values published during one send: each between 0 and the
      size, and none smaller than the one before. */
  predicate ProgressOk(p: seq<int>, total: int) {
    (forall i :: 0 <= i < |p| ==> 0 <= p[i] <= total)
    && (forall i :: 0 < i < |p| ==> p[i - 1] <= p[i])
  }

  /** Progress published by a sender cutting `total` bytes into `chunk`-byte
      slices: entry `k` is the offset after `k` slices, `min(k * chunk, total)`. */
  predicate ProgressAtOffsets(p: seq<int>, chunk: nat, total: nat) {
    forall k :: 0 <= k < |p| ==> p[k] == Min(k * chunk, total)
  }

  /** The offset after one more slice is the next entry of the sequence. */
  lemma ProgressOffsetsStep(p: seq<int>, chunk: nat, total: nat)
    requires ProgressAtOffsets(p, chunk, total) && |p| > 0 && p[|p| - 1] < total && chunk > 0
    ensures p[|p| - 1] >= 0 && ProgressAtOffsets(p + [Min(p[|p| - 1] + chunk, total)], chunk, total)
  {
    var n := |p| - 1;
    assert p[n] == n * chunk;
    assert (n + 1) * chunk == n * chunk + chunk;
  }

  /** Appending a value no smaller than the last keeps the progress sound. */
  lemma ProgressStep(p: seq<int>, total: int, next: int)
    requires ProgressOk(p, total) && |p| > 0 && p[|p| - 1] == total <= next
    ensures ProgressOk(p + [next], next)
  {
  }

  /** Hence the bar never moves backwards between any two updates. */
  lemma {:induction false} ProgressNeverDecreases(p: seq<int>, total: int, i: nat, j: nat)
    requires ProgressOk(p, total) && i <= j < |p|
    ensures p[i] <= p[j]
    decreases j - i
  {
    if i < j {
      ProgressNeverDecreases(p, total, i, j - 1);
    }
  }
}

=== FILE: polling.dfy ===
/** `getJSONorNull` (client/src/App.jsx and signalingtest/public/app.js):
    how a client reads one reply of the signalling server while it polls for
    the peer's description, and what that means against the server's
    handlers. The polling loops themselves (sleep, retry) are not modelled. */
module Polling {
  import opened Common
  import opened Rendezvous

  /** `null` (keep polling), a thrown error, or the parsed JSON body. */
  datatype Poll = Pending | Fails(status: int) | Ready(body: Body)

  /** `r.ok`: a status in 200..299. */
  predicate IsOk(status: int) {
    200 <= status <= 299
  }

  /** 204 and 404 both mean "not yet"; any other status outside 2xx throws;
      a 2xx reply hands over its body. */
  function GetJSONorNull(r: Reply): (p: Poll)
    ensures p.Pending? <==> r.status == 204 || r.status == 404
    ensures p.Fails? <==> r.status != 404 && !IsOk(r.status)
    ensures p.Ready? <==> IsOk(r.status) && r.status != 204
    ensures p.Fails? ==> p.status == r.status
    ensures p.Ready? ==> p.body == r.body
  {
    if r.status == 204 || r.status == 404 then Pending
    else if !IsOk(r.status) then Fails(r.status)
    else Ready(r.body)
  }

  /** `if (json) ans = json.sdp`: the description a poll delivers, if any. */
  function Delivered(p: Poll): Option<string> {
    if p.Ready? && p.body.Description? then Some(p.body.sdp) else None
  }

  /** Polling for the offer never throws against the server: it stays
      pending exactly while the slot is missing or its offer falsy, and
      otherwise delivers the stored offer, which ends the loop. */
  lemma PollOffer(store: Store, token: string)
    ensures var p := GetJSONorNull(GetOffer(store, token));
      !p.Fails?
      && (p.Pending? <==> !(token in store && Truthy(store[token].offer)))
      && (p.Ready? ==> Delivered(p) == store[token].offer && Truthy(Delivered(p)))
  {
  }

  /** The same for the answer. */
  lemma PollAnswer(store: Store, token: string)
    ensures var p := GetJSONorNull(GetAnswer(store, token));
      !p.Fails?
      && (p.Pending? <==> !(token in store && Truthy(store[token].answer)))
      && (p.Ready? ==> Delivered(p) == store[token].answer && Truthy(Delivered(p)))
  {
  }

  /** A joiner polling after the sender posted a non-empty offer to an open
      slot receives exactly that offer; the sender polling after the joiner
      posted a non-empty answer receives exactly that answer. */
  lemma HandshakeDelivers(store: Store, token: string, offer: string, answer: string, t1: int, t2: int)
    requires token in store && !Consumed(store[token])
    requires offer != "" && answer != ""
    ensures var s1 := PostOffer(store, token, Some(offer), t1).store;
      Delivered(GetJSONorNull(GetOffer(s1, token))) == Some(offer)
      && var s2 := PostAnswer(s1, token, Some(answer), t2).store;
      Delivered(GetJSONorNull(GetAnswer(s2, token))) == Some(answer)
      && Delivered(GetJSONorNull(GetOffer(s2, token))) == Some(offer)
  {
    var s1 := PostOffer(store, token, Some(offer), t1).store;
    PollOffer(s1, token);
    var s2 := PostAnswer(s1, token, Some(answer), t2).store;
    PollAnswer(s2, token);
    PollOffer(s2, token);
  }
}

=== FILE: rendezvous.dfy ===
/** The signalling server's handler semantics, shared by both server copies
    (server/server.js and signalingtest/server.js): an in-memory map from
    token to a slot holding the offer, the answer and the time of the last
    write. Each handler is a function from the store (and the request) to a
    reply and the new store; the classes in modules SignalingServer and
    SignalingTestServer hold the store and are proved against these. */
module Rendezvous {
  import opened Common

  /** `{offer, answer, at}`; `None` is JavaScript's `null`/`undefined`. */
  datatype Slot = Slot(offer: Option<string>, answer: Option<string>, at: int)

  type Store = map<string, Slot>

  /** Slots not written for longer than this many milliseconds are swept. */
  const TTL_MS: int := 10 * 60 * 1000

  /** JSON bodies and statuses the handlers answer with. */
  datatype Body =
    | Empty                                              // 204, no body
    | Issued(token: string)                              // `{token}`
    | Accepted                                           // `{ok: true}`
    | Failure(error: string)                             // `{error}`
    | Description(sdp: string)                           // `{sdp}`
    | Debug(hasOffer: bool, hasAnswer: bool, updatedAt: int)

  datatype Reply = Reply(status: int, body: Body)

  datatype Outcome = Outcome(reply: Reply, store: Store)

  const NoSession := Reply(404, Failure("no session"))
  const AlreadyUsed := Reply(409, Failure("already used"))
  const Ok := Reply(200, Accepted)

  /** JavaScript truthiness of an sdp field: `null`, `undefined` and `""` are falsy. */
  predicate Truthy(sdp: Option<string>) {
    sdp.Some? && sdp.value != ""
  }

  /** Both descriptions are present: the slot takes no further offer. */
  predicate Consumed(s: Slot) {
    Truthy(s.offer) && Truthy(s.answer)
  }

  function EmptySlot(now: int): Slot {
    Slot(None, None, now)
  }

  /** POST /api/offer. */
  function PostOffer(store: Store, token: string, sdp: Option<string>, now: int): (o: Outcome)
    ensures o.reply.status == 404 <==> token !in store
    ensures o.reply.status == 409 <==> token in store && Consumed(store[token])
    ensures o.reply.status in {200, 404, 409}
    ensures o.reply.status != 200 ==> o.store == store
    ensures o.reply.status == 200 ==>
      o.store.Keys == store.Keys && o.store[token] == Slot(sdp, store[token].answer, now)
    ensures forall k :: k in store && k != token ==> k in o.store && o.store[k] == store[k]
  {
    if token !in store then Outcome(NoSession, store)
    else if Consumed(store[token]) then Outcome(AlreadyUsed, store)
    else Outcome(Ok, store[token := store[token].(offer := sdp, at := now)])
  }

  /** GET /api/offer: 404 without a slot, 204 while the offer is falsy,
      otherwise the stored offer. */
  function GetOffer(store: Store, token: string): (r: Reply)
    ensures r.status == 404 <==> token !in store
    ensures r.status == 204 <==> token in store && !Truthy(store[token].offer)
    ensures r.status == 200 <==> token in store && Truthy(store[token].offer)
    ensures r.status == 200 ==> r.body == Description(store[token].offer.value) && r.body.sdp != ""
  {
    if token !in store then NoSession
    else if !Truthy(store[token].offer) then Reply(204, Empty)
    else Reply(200, Description(store[token].offer.value))
  }

  /** POST /api/answer: only the slot's existence is checked, the previous
      answer is overwritten. */
  function PostAnswer(store: Store, token: string, sdp: Option<string>, now: int): (o: Outcome)
    ensures o.reply.status == 404 <==> token !in store
    ensures o.reply.status in {200, 404}
    ensures o.reply.status == 404 ==> o.store == store
    ensures o.reply.status == 200 ==>
      o.store.Keys == store.Keys && o.store[token] == Slot(store[token].offer, sdp, now)
    ensures forall k :: k in store && k != token ==> k in o.store && o.store[k] == store[k]
  {
    if token !in store then Outcome(NoSession, store)
    else Outcome(Ok, store[token := store[token].(answer := sdp, at := now)])
  }

  /** GET /api/answer, symmetric to GetOffer. */
  function GetAnswer(store: Store, token: string): (r: Reply)
    ensures r.status == 404 <==> token !in store
    ensures r.status == 204 <==> token in store && !Truthy(store[token].answer)
    ensures r.status == 200 <==> token in store && Truthy(store[token].answer)
    ensures r.status == 200 ==> r.body == Description(store[token].answer.value) && r.body.sdp != ""
  {
    if token !in store then NoSession
    else if !Truthy(store[token].answer) then Reply(204, Empty)
    else Reply(200, Description(store[token].answer.value))
  }

  /** GET /api/debug. */
  function DebugSlot(store: Store, token: string): (r: Reply)
    ensures r.status == 404 <==> token !in store
    ensures token in store ==> r == Reply(200, Debug(Truthy(store[token].offer),
                                                    Truthy(store[token].answer),
                                                    store[token].at))
  {
    if token !in store then NoSession
    else
      var slot := store[token];
      Reply(200, Debug(Truthy(slot.offer), Truthy(slot.answer), slot.at))
  }

  /** A slot has outlived the time-to-live at time `now`. */
  predicate Stale(s: Slot, now: int) {
    now - s.at > TTL_MS
  }

  /** The store after one pass of the periodic sweep. */
  function Swept(store: Store, now: int): Store {
    map k | k in store && !Stale(store[k], now) :: store[k]
  }

  // ---------------------------------------------------------------------
  // Properties relating several handlers

  /** Posting a non-empty offer to an open slot, then reading it back,
      returns exactly that offer. */
  lemma OfferRoundTrip(store: Store, token: string, sdp: string, now: int)
    requires token in store && !Consumed(store[token]) && sdp != ""
    ensures PostOffer(store, token, Some(sdp), now).reply == Ok
    ensures GetOffer(PostOffer(store, token, Some(sdp), now).store, token) == Reply(200, Description(sdp))
  {
  }

  /** Answers are last-writer-wins: after two posts the second is read back. */
  lemma AnswerLastWriterWins(store: Store, token: string, first: Option<string>, second: string, t1: int, t2: int)
    requires token in store && second != ""
    ensures var s1 := PostAnswer(store, token, first, t1).store;
            GetAnswer(PostAnswer(s1, token, Some(second), t2).store, token) == Reply(200, Description(second))
  {
  }

  /** Once both sides are posted, every further offer is refused and the
      answer side is not disturbed by the refusal. */
  lemma ConsumedRefusesOffers(store: Store, token: string, sdp: Option<string>, now: int)
    requires token in store && Truthy(store[token].offer) && Truthy(store[token].answer)
    ensures PostOffer(store, token, sdp, now) == Outcome(AlreadyUsed, store)
  {
  }

  /** A slot stays consumed when the answer is re-posted with a non-empty
      description, so the offer stays locked. A falsy answer, on the other
      hand, reopens it (see README). */
  lemma AnswerKeepsOrReopensLock(store: Store, token: string, sdp: Option<string>, now: int)
    requires token in store && Consumed(store[token])
    ensures var s := PostAnswer(store, token, sdp, now).store;
            Consumed(s[token]) <==> Truthy(sdp)
  {
  }

  /** GET handlers are read-only by construction; a sweep removes exactly the
      stale slots, so a stale token answers 404 afterwards and a live one
      answers as before. */
  lemma {:induction false} SweepEffect(store: Store, token: string, now: int)
    ensures token in store && Stale(store[token], now) ==>
      GetOffer(Swept(store, now), token) == NoSession && GetAnswer(Swept(store, now), token) == NoSession
    ensures token in store && !Stale(store[token], now) ==>
      GetOffer(Swept(store, now), token) == GetOffer(store, token) &&
      GetAnswer(Swept(store, now), token) == GetAnswer(store, token) &&
      DebugSlot(Swept(store, now), token) == DebugSlot(store, token)
    ensures token !in store ==> token !in Swept(store, now)
  {
  }

  /** A second sweep at the same instant removes nothing more. */
  lemma SweepIdempotent(store: Store, now: int)
    ensures Swept(Swept(store, now), now) == Swept(store, now)
  {
  }

  /** Sweeping keeps exactly the slots at or under the TTL, unchanged. */
  lemma SweepKeepsLive(store: Store, now: int)
    ensures Swept(store, now).Keys == set k | k in store && now - store[k].at <= TTL_MS
    ensures forall k :: k in Swept(store, now) ==> Swept(store, now)[k] == store[k]
  {
  }

  // ---------------------------------------------------------------------
  // Numeric tokens (server/server.js): `String(n)` for n in [100000, 999999]

  const TOKEN_LOW: nat := 100000
  const TOKEN_HIGH: nat := 1000000   // exclusive
  const TOKEN_SPACE: nat := TOKEN_HIGH - TOKEN_LOW

  function DigitChar(d: nat): char
    requires d < 10
  {
    ('0' as int + d) as char
  }

  /** `String(n)` for a non-negative integer: its decimal digits. */
  function Decimal(n: nat): (s: string)
    ensures |s| >= 1 && AllAsciiDigits(s)
  {
    if n < 10 then [DigitChar(n)] else Decimal(n / 10) + [DigitChar(n % 10)]
  }

  /** The value of a string of decimal digits. */
  function DecimalValue(s: string): nat
    requires AllAsciiDigits(s)
  {
    if s == [] then 0 else DecimalValue(s[..|s| - 1]) * 10 + (s[|s| - 1] as int - '0' as int)
  }

  lemma {:induction false} DecimalRoundTrip(n: nat)
    ensures DecimalValue(Decimal(n)) == n
  {
    var s := Decimal(n);
    if n >= 10 {
      assert s[..|s| - 1] == Decimal(n / 10);
      DecimalRoundTrip(n / 10);
    }
  }

  /** Dropping the last digit: one character shorter, same first character. */
  lemma DecimalStep(n: nat)
    requires n >= 10
    ensures |Decimal(n)| == |Decimal(n / 10)| + 1 && Decimal(n)[0] == Decimal(n / 10)[0]
  {
  }

  /** `String(n)` of a token number has six digits, none of them a leading zero. */
  lemma DecimalOfTokenNumber(n: nat)
    requires TOKEN_LOW <= n < TOKEN_HIGH
    ensures |Decimal(n)| == 6 && Decimal(n)[0] != '0'
  {
    var q1 := n / 10;
    var q2 := q1 / 10;
    var q3 := q2 / 10;
    var q4 := q3 / 10;
    var q5 := q4 / 10;
    assert 10000 <= q1 < 100000 && 1000 <= q2 < 10000 && 100 <= q3 < 1000;
    assert 10 <= q4 < 100 && 1 <= q5 < 10;
    DecimalStep(n);
    DecimalStep(q1);
    DecimalStep(q2);
    DecimalStep(q3);
    DecimalStep(q4);
  }

  function TokensIn(lo: nat, hi: nat): set<string> {
    set n: nat | lo <= n < hi :: Decimal(n)
  }

  /** Every token `newNumericToken` can draw. */
  function NumericTokens(): set<string> {
    TokensIn(TOKEN_LOW, TOKEN_HIGH)
  }

  lemma {:induction false} TokensInCardinality(lo: nat, hi: nat)
    requires lo <= hi
    ensures |TokensIn(lo, hi)| == hi - lo
  {
    if lo == hi {
      assert TokensIn(lo, hi) == {};
    } else {
      TokensInCardinality(lo, hi - 1);
      var last := Decimal(hi - 1);
      assert TokensIn(lo, hi) == TokensIn(lo, hi - 1) + {last};
      assert last !in TokensIn(lo, hi - 1) by {
        forall n: nat | lo <= n < hi - 1 ensures Decimal(n) != last {
          DecimalRoundTrip(n);
          DecimalRoundTrip(hi - 1);
        }
      }
    }
  }

  /** There are exactly 900000 distinct numeric tokens. */
  lemma NumericTokenCount()
    ensures |NumericTokens()| == TOKEN_SPACE
  {
    TokensInCardinality(TOKEN_LOW, TOKEN_HIGH);
  }

  lemma SubsetCardinality<T>(a: set<T>, b: set<T>)
    requires a <= b
    ensures |a| <= |b|
  {
    assert b == a + (b - a);
  }

  /** While fewer than 900000 tokens are live, some numeric token is free, so
      the retry loop of the session handler has something to find. */
  lemma FreeTokenExists(keys: set<string>)
    requires |keys| < TOKEN_SPACE
    ensures NumericTokens() - keys != {}
  {
    NumericTokenCount();
    var all := NumericTokens();
    assert all == (all - keys) + (all * keys);
    SubsetCardinality(all * keys, keys);
  }

  /** Each numeric token is six ASCII digits. */
  lemma NumericTokenShape(t: string)
    requires t in NumericTokens()
    ensures |t| == 6 && AllAsciiDigits(t) && t[0] != '0'
  {
    var n: nat :| TOKEN_LOW <= n < TOKEN_HIGH && t == Decimal(n);
    DecimalOfTokenNumber(n);
  }

  /** The store after a session is issued under `token`. */
  function Issue(store: Store, token: string, now: int): (s: Store)
    ensures s.Keys == store.Keys + {token} && s[token] == EmptySlot(now)
    ensures GetOffer(s, token).status == 204 && GetAnswer(s, token).status == 204
    ensures forall k :: k in store && k != token ==> s[k] == store[k]
  {
    store[token := EmptySlot(now)]
  }

  /** Issuing a token that is already live (possible in signalingtest/server.js,
      which does not check) discards a posted offer: readers see 204 again. */
  lemma IssueOverwrites(store: Store, token: string, now: int)
    requires token in store && Truthy(store[token].offer)
    ensures GetOffer(store, token).status == 200
    ensures GetOffer(Issue(store, token, now), token).status == 204
  {
  }

  /** Scenario: create, poll (204), post "D1", poll ("D1"). */
  lemma ScenarioCreatePostGet(store: Store, now: int)
    requires "482913" !in store
    ensures var s0 := Issue(store, "482913", now);
            GetOffer(s0, "482913") == Reply(204, Empty) &&
            PostOffer(s0, "482913", Some("D1"), now + 1).reply == Ok &&
            GetOffer(PostOffer(s0, "482913", Some("D1"), now + 1).store, "482913") == Reply(200, Description("D1"))
  {
  }

  /** Scenario: both sides posted, a further offer is refused with 409. */
  lemma ScenarioConflict(store: Store, token: string, now: int)
    requires token !in store
    ensures var s1 := PostOffer(Issue(store, token, now), token, Some("D1"), now).store;
            var s2 := PostAnswer(s1, token, Some("A1"), now).store;
            PostOffer(s2, token, Some("D2"), now).reply == AlreadyUsed
  {
  }
}

=== FILE: server.dfy ===
/** server/server.js: the production signalling server. Its module-level
    `store` Map is the field `store`; each Express handler is a method that
    answers with a status and body and updates the store in place. */
module SignalingServer {
  import opened Common
  import opened Rendezvous

  class Server {
    var store: Store

    constructor ()
      ensures store == map[]
    {
      store := map[];
    }

    /** POST /api/session: draw numeric tokens until one is not live (the
        do-while retry), then store an empty slot under it. The draws are
        random, so the model picks any free numeric token; it exists while
        fewer than 900000 sessions are live. */
    method CreateSession(now: int) returns (reply: Reply, token: string)
      requires |store| < TOKEN_SPACE
      modifies this
      ensures token in NumericTokens() && token !in old(store)
      ensures reply == Reply(200, Issued(token))
      ensures store == Issue(old(store), token, now)
    {
      FreeTokenExists(store.Keys);
      token :| token in NumericTokens() - store.Keys;
      store := store[token := EmptySlot(now)];
      reply := Reply(200, Issued(token));
    }

    /** POST /api/offer. */
    method PostOffer(token: string, sdp: Option<string>, now: int) returns (reply: Reply)
      modifies this
      ensures Outcome(reply, store) == Rendezvous.PostOffer(old(store), token, sdp, now)
    {
      if token !in store {
        return NoSession;
      }
      var slot := store[token];
      if Truthy(slot.offer) && Truthy(slot.answer) {
        return AlreadyUsed;
      }
      store := store[token := slot.(offer := sdp, at := now)];
      reply := Ok;
    }

    /** GET /api/offer: reads the store and never changes it. */
    method GetOffer(token: string) returns (reply: Reply)
      ensures reply == Rendezvous.GetOffer(store, token)
    {
      if token !in store {
        return NoSession;
      }
      var slot := store[token];
      if !Truthy(slot.offer) {
        return Reply(204, Empty);
      }
      reply := Reply(200, Description(slot.offer.value));
    }

    /** POST /api/answer. */
    method PostAnswer(token: string, sdp: Option<string>, now: int) returns (reply: Reply)
      modifies this
      ensures Outcome(reply, store) == Rendezvous.PostAnswer(old(store), token, sdp, now)
    {
      if token !in store {
        return NoSession;
      }
      var slot := store[token];
      store := store[token := slot.(answer := sdp, at := now)];
      reply := Ok;
    }

    /** GET /api/answer. */
    method GetAnswer(token: string) returns (reply: Reply)
      ensures reply == Rendezvous.GetAnswer(store, token)
    {
      if token !in store {
        return NoSession;
      }
      var slot := store[token];
      if !Truthy(slot.answer) {
        return Reply(204, Empty);
      }
      reply := Reply(200, Description(slot.answer.value));
    }

    /** GET /api/debug. */
    method Debug(token: string) returns (reply: Reply)
      ensures reply == DebugSlot(store, token)
    {
      if token !in store {
        return NoSession;
      }
      var slot := store[token];
      reply := Reply(200, Rendezvous.Debug(Truthy(slot.offer), Truthy(slot.answer), slot.at));
    }

    /** The body of the one-minute `setInterval`: walk the entries and delete
        each one idle for longer than the TTL. */
    method Sweep(now: int)
      modifies this
      ensures store == Swept(old(store), now)
    {
      var pending := store.Keys;
      while pending != {}
        invariant pending <= old(store).Keys
        invariant store == map k | k in old(store) && (k in pending || !Stale(old(store)[k], now)) :: old(store)[k]
        decreases pending
      {
        var k :| k in pending;
        if now - store[k].at > TTL_MS {
          store := store - {k};
        }
        pending := pending - {k};
      }
    }
  }
}

=== FILE: test_client.dfy ===
/** The plain-script test client (signalingtest/public/app.js): its
    module-level connection variables, the DOM state it writes (send
    button, progress bars, file-name label, download link, status line,
    token box), the receiver's frame handler, the chunked sender, the
    token-box filter, the start-up auto-join rule and `resetPeer`. DOM
    properties become fields. */
module TestClient {
  import opened Common
  import opened Framing
  import opened ClientText

  /** The `download` link: shown or hidden, the bytes its object URL holds
      (`None` for `href = '#'`), and its `download` file name. */
  datatype Download = Download(shown: bool, data: Option<seq<byte>>, name: string)

  /** The two alerts the send button can raise. */
  datatype Refusal = NotConnected | NoFileChosen

  /** `m.name || 'received.bin'`, and the same rule for the link's name. */
  function NameOr(name: string): (r: string)
    ensures r != [] && (name != [] ==> r == name)
    ensures name == [] ==> r == FALLBACK_NAME
  {
    if name == "" then FALLBACK_NAME else name
  }

  class Page {
    var hasPeer: bool          // pc !== null
    var dc: Channel?
    var connected: bool
    var sendDisabled: bool     // btnSend.disabled
    var statusText: string
    var progSend: Progress
    var progRecv: Progress
    var recvNameText: string   // recvName.textContent
    var download: Download
    var tokenValue: string     // tokenEl.value
    /** The token of the join the input handler has scheduled, if any
        (the debounced `joinWithToken`). */
    var pendingJoin: Option<string>
    /** The token `bootFromURL` started joining with, if any. */
    var bootJoin: Option<string>

    // The closure variables of the current `wireRecvChannel`.
    var expected: int
    var received: int
    var chunks: seq<seq<byte>>

    function Acc(): Accumulator
      reads this
    {
      Accumulator(expected, received, chunks)
    }

    /** The state after the page's elements are looked up: nothing
        connected, the send button disabled, both bars hidden. */
    constructor ()
      ensures !hasPeer && dc == null && !connected && sendDisabled && statusText == ""
      ensures progSend == Progress(true, 1, 0) && progRecv == Progress(true, 1, 0)
      ensures recvNameText == NO_NAME && download == Download(false, None, "")
      ensures tokenValue == "" && pendingJoin == None && bootJoin == None
      ensures Acc() == Accumulator(0, 0, [])
    {
      hasPeer, dc, connected, sendDisabled, statusText := false, null, false, true, "";
      progSend, progRecv := Progress(true, 1, 0), Progress(true, 1, 0);
      recvNameText, download := NO_NAME, Download(false, None, "");
      tokenValue, pendingJoin, bootJoin := "", None, None;
      expected, received, chunks := 0, 0, [];
    }

    /** `wireSendChannel`'s `onopen`. */
    method OnOpen(ch: Channel)
      requires ch.Valid()
      modifies this
      ensures dc == ch && dc.Valid() && connected && !sendDisabled && statusText == "Connected"
      ensures hasPeer == old(hasPeer) && progSend == old(progSend) && progRecv == old(progRecv)
      ensures recvNameText == old(recvNameText) && download == old(download) && tokenValue == old(tokenValue)
      ensures pendingJoin == old(pendingJoin) && bootJoin == old(bootJoin) && expected == old(expected) && received == old(received) && chunks == old(chunks)
    {
      dc, sendDisabled, connected, statusText := ch, false, true, "Connected";
    }

    /** `wireSendChannel`'s `onclose`: only the current channel's closing
        disconnects. */
    method OnClose(ch: Channel)
      modifies this
      ensures old(dc) == ch ==> dc == null && sendDisabled && !connected && statusText == "Disconnected"
      ensures old(dc) != ch ==>
        dc == old(dc) && sendDisabled == old(sendDisabled) && connected == old(connected) && statusText == old(statusText)
      ensures hasPeer == old(hasPeer) && progSend == old(progSend) && progRecv == old(progRecv)
      ensures recvNameText == old(recvNameText) && download == old(download) && tokenValue == old(tokenValue)
      ensures pendingJoin == old(pendingJoin) && bootJoin == old(bootJoin) && expected == old(expected) && received == old(received) && chunks == old(chunks)
    {
      if dc == ch {
        dc, sendDisabled, connected, statusText := null, true, false, "Disconnected";
      }
    }

    /** `wireRecvChannel`: a fresh receiver; the bar is hidden and emptied
        (its maximum is left as it was). */
    method WireRecvChannel()
      modifies this
      ensures Acc() == Accumulator(0, 0, []) && Consistent(Acc())
      ensures progRecv == old(progRecv).(hidden := true, value := 0)
      ensures hasPeer == old(hasPeer) && dc == old(dc) && connected == old(connected)
      ensures sendDisabled == old(sendDisabled) && statusText == old(statusText) && progSend == old(progSend)
      ensures recvNameText == old(recvNameText) && download == old(download) && tokenValue == old(tokenValue)
      ensures pendingJoin == old(pendingJoin) && bootJoin == old(bootJoin)
    {
      expected, received, chunks := 0, 0, [];
      progRecv := progRecv.(hidden := true, value := 0);
    }

    /** `ch.onmessage` for the frames this client's senders write: `META`
        (its JSON parsed, or `None` when `JSON.parse` throws), binary
        chunks, and `EOF`. The receiver state moves as `Accumulate` says;
        `META` sets the label (falling back to `received.bin`) and shows
        the bar, a chunk advances it, `EOF` offers the concatenated chunks
        for download under the label's name. */
    method OnMessage(f: Frame)
      requires f.Meta? || f.Eof? || f.Binary?
      modifies this
      ensures Acc() == Accumulate(old(Acc()), f)
      ensures (f.Meta? && f.meta.Some?) ==>
        recvNameText == NameOr(f.meta.value.name) && progRecv == Progress(false, BarMax(f.meta.value.size), 0)
      ensures f.Binary? ==> progRecv == old(progRecv).(value := received)
      ensures f.Eof? ==> download == Download(true, Some(Flatten(chunks)), NameOr(recvNameText))
      ensures !f.Eof? ==> download == old(download)
      ensures !(f.Meta? && f.meta.Some?) ==> recvNameText == old(recvNameText)
      ensures (f.Meta? && f.meta.None?) || f.Eof? ==> progRecv == old(progRecv)
      ensures hasPeer == old(hasPeer) && dc == old(dc) && connected == old(connected)
      ensures sendDisabled == old(sendDisabled) && statusText == old(statusText) && progSend == old(progSend)
      ensures tokenValue == old(tokenValue) && pendingJoin == old(pendingJoin) && bootJoin == old(bootJoin)
    {
      match f
      case Meta(Some(m)) =>
        expected, received, chunks := m.size, 0, [];
        recvNameText := NameOr(m.name);
        progRecv := Progress(false, BarMax(expected), 0);
      case Meta(None) =>
      case Eof =>
        download := Download(true, Some(Flatten(chunks)), NameOr(recvNameText));
      case Binary(d) =>
        chunks := chunks + [d];
        received := received + |d|;
        progRecv := progRecv.(value := received);
    }

    /** `resetPeer()`: closes the channel, forgets the peer, disables
        sending, hides and empties both bars, resets the label, hides the
        link and clears the status line. */
    method ResetPeer()
      modifies this, dc
      ensures old(dc) != null ==> !old(dc).open
      ensures old(dc) != null ==> old(dc).sent == old(dc.sent) && old(dc).bufferedAtSend == old(dc.bufferedAtSend)
      ensures old(dc) != null ==> old(dc).lowThreshold == old(dc.lowThreshold) && old(dc).bufferedAmount == old(dc.bufferedAmount)
      ensures !hasPeer && dc == null && !connected && sendDisabled && statusText == ""
      ensures progSend == old(progSend).(hidden := true, value := 0)
      ensures progRecv == old(progRecv).(hidden := true, value := 0)
      ensures recvNameText == NO_NAME && download == old(download).(shown := false, data := None)
      ensures tokenValue == old(tokenValue) && pendingJoin == old(pendingJoin) && bootJoin == old(bootJoin)
      ensures expected == old(expected) && received == old(received) && chunks == old(chunks)
    {
      if dc != null {
        dc.Close();
      }
      ForgetPeer();
    }

    /** The part of `resetPeer` after the closes: the page's own state. */
    method ForgetPeer()
      modifies this`hasPeer, this`dc, this`connected, this`sendDisabled, this`statusText
      modifies this`progSend, this`progRecv, this`recvNameText, this`download
      ensures !hasPeer && dc == null && !connected && sendDisabled && statusText == ""
      ensures progSend == old(progSend).(hidden := true, value := 0)
      ensures progRecv == old(progRecv).(hidden := true, value := 0)
      ensures recvNameText == NO_NAME && download == old(download).(shown := false, data := None)
    {
      hasPeer, dc, connected := false, null, false;
      sendDisabled := true;
      progSend := progSend.(hidden := true, value := 0);
      progRecv := progRecv.(hidden := true, value := 0);
      recvNameText := NO_NAME;
      download := download.(shown := false, data := None);
      statusText := "";
    }

    /** The send button: refuses without an open channel or a chosen file;
        otherwise shows the bar and streams the file in 64 KiB chunks.
        `progress` is the sequence of values the bar takes. */
    method SendFile(file: Option<FileBlob>) returns (err: Option<Refusal>, ghost progress: seq<int>)
      requires dc != null ==> dc.Valid()
      modifies this, dc
      ensures dc == old(dc) && (dc != null ==> dc.Valid())
      ensures err == Some(NotConnected) <==> old(dc) == null || !old(dc.open)
      ensures err == Some(NoFileChosen) <==> old(dc) != null && old(dc.open) && file.None?
      ensures err.Some? ==> progSend == old(progSend)
      ensures err.Some? && dc != null ==> dc.sent == old(dc.sent)
      ensures err.Some? && dc != null ==> unchanged(dc)
      ensures dc != null ==> dc.open == old(dc.open)
      ensures err.None? ==>
        var size := |file.value.data|;
        dc.sent == old(dc.sent) + TransferFrames(file.value.name, file.value.data, TEST_CHUNK)
        && FlowControlled(dc.sent, dc.bufferedAtSend, old(|dc.sent|))
        && dc.lowThreshold == HIGH_WATER
        && dc.bufferedAtSend[..|old(dc.sent)|] == old(dc.bufferedAtSend)
        && progSend == Progress(false, BarMax(size), size)
        && ProgressOk(progress, size) && |progress| > 0 && progress[0] == 0 && progress[|progress| - 1] == size
        && |progress| == |ChunksFrom(file.value.data, 0, TEST_CHUNK)| + 1
        && ProgressAtOffsets(progress, TEST_CHUNK, size)
      ensures hasPeer == old(hasPeer) && connected == old(connected) && sendDisabled == old(sendDisabled)
      ensures statusText == old(statusText) && progRecv == old(progRecv) && recvNameText == old(recvNameText)
      ensures download == old(download) && tokenValue == old(tokenValue)
      ensures pendingJoin == old(pendingJoin) && bootJoin == old(bootJoin) && expected == old(expected) && received == old(received) && chunks == old(chunks)
    {
      progress := [];
      var ch := dc;
      if ch == null || !ch.open {
        return Some(NotConnected), progress;
      }
      if file.None? {
        return Some(NoFileChosen), progress;
      }
      var name, data := file.value.name, file.value.data;
      progSend := Progress(false, BarMax(|data|), 0);
      progress := ch.StreamFile(name, data, TEST_CHUNK);
      progSend := progSend.(value := |data|);
      err := None;
    }

    /** The token box's `input` listener: the box keeps only the first six
        digits; a complete token replaces any pending join with one for it
        and says so on the status line. */
    method OnTokenInput(v: string)
      modifies this
      ensures tokenValue == ClientText.OnTokenInput(v).value
      ensures ClientText.OnTokenInput(v).join ==> pendingJoin == Some(tokenValue) && statusText == "Joining\U{2026}"
      ensures !ClientText.OnTokenInput(v).join ==> pendingJoin == old(pendingJoin) && statusText == old(statusText)
      ensures hasPeer == old(hasPeer) && dc == old(dc) && connected == old(connected)
      ensures sendDisabled == old(sendDisabled) && progSend == old(progSend) && progRecv == old(progRecv)
      ensures recvNameText == old(recvNameText) && download == old(download) && bootJoin == old(bootJoin)
      ensures expected == old(expected) && received == old(received) && chunks == old(chunks)
    {
      var t := FilterToken(v);
      tokenValue := t;
      if IsDigits(Some(t)) {
        pendingJoin := Some(t);
        statusText := "Joining\U{2026}";
      }
    }

    /** `bootFromURL()` with the query's `t`, `role` and `auto`: a six-digit
        `t` fills the box and the status line; it is joined at once only
        for `role=join&auto=1`. */
    method BootFromURL(t: Option<string>, role: Option<string>, auto: Option<string>)
      modifies this
      ensures var b := ClientText.BootFromURL(t, role, auto);
        (b.Ignore? ==> tokenValue == old(tokenValue) && statusText == old(statusText) && bootJoin == old(bootJoin))
        && (!b.Ignore? ==> tokenValue == b.token && statusText == "Code: " + b.token)
        && (b.FillAndJoin? ==> bootJoin == Some(b.token))
        && (b.Fill? ==> bootJoin == old(bootJoin))
      ensures hasPeer == old(hasPeer) && dc == old(dc) && connected == old(connected)
      ensures sendDisabled == old(sendDisabled) && progSend == old(progSend) && progRecv == old(progRecv)
      ensures recvNameText == old(recvNameText) && download == old(download) && pendingJoin == old(pendingJoin)
      ensures expected == old(expected) && received == old(received) && chunks == old(chunks)
    {
      if IsDigits(t) {
        tokenValue := t.value;
        statusText := "Code: " + t.value;
        if role == Some("join") && auto == Some("1") {
          bootJoin := Some(t.value);
        }
      }
    }
  }
}

=== FILE: test_server.dfy ===
/** signalingtest/server.js: the earlier copy of the signalling server. Its
    handlers and sweep behave like server/server.js; only session creation
    differs: one base-36 draw, stored without checking whether it is live. */
module SignalingTestServer {
  import opened Common
  import opened Rendezvous

  /** What `slice(2, 8)` of a base-36 fraction can be. */
  predicate IsBase36Draw(t: string) {
    |t| <= 6 && forall i :: 0 <= i < |t| ==> IsAsciiDigit(t[i]) || 'a' <= t[i] <= 'z'
  }

  class TestServer {
    var store: Store

    constructor ()
      ensures store == map[]
    {
      store := map[];
    }

    /** POST /api/session: `Math.random().toString(36).slice(2, 8)` yields at
        most six characters from 0-9 and a-z; the model takes any such string.
        There is no collision check, so a live slot under the same token is
        replaced by an empty one. */
    method CreateSession(now: int) returns (reply: Reply, token: string)
      modifies this
      ensures IsBase36Draw(token)
      ensures reply == Reply(200, Issued(token))
      ensures store == Issue(old(store), token, now)
    {
      token :| IsBase36Draw(token);
      store := store[token := EmptySlot(now)];
      reply := Reply(200, Issued(token));
    }

    /** POST /api/offer. */
    method PostOffer(token: string, sdp: Option<string>, now: int) returns (reply: Reply)
      modifies this
      ensures Outcome(reply, store) == Rendezvous.PostOffer(old(store), token, sdp, now)
    {
      if token !in store {
        return NoSession;
      }
      var slot := store[token];
      if Truthy(slot.offer) && Truthy(slot.answer) {
        return AlreadyUsed;
      }
      store := store[token := slot.(offer := sdp, at := now)];
      reply := Ok;
    }

    /** GET /api/offer: reads the store and never changes it. */
    method GetOffer(token: string) returns (reply: Reply)
      ensures reply == Rendezvous.GetOffer(store, token)
    {
      if token !in store {
        return NoSession;
      }
      var slot := store[token];
      if !Truthy(slot.offer) {
        return Reply(204, Empty);
      }
      reply := Reply(200, Description(slot.offer.value));
    }

    /** POST /api/answer. */
    method PostAnswer(token: string, sdp: Option<string>, now: int) returns (reply: Reply)
      modifies this
      ensures Outcome(reply, store) == Rendezvous.PostAnswer(old(store), token, sdp, now)
    {
      if token !in store {
        return NoSession;
      }
      var slot := store[token];
      store := store[token := slot.(answer := sdp, at := now)];
      reply := Ok;
    }

    /** GET /api/answer. */
    method GetAnswer(token: string) returns (reply: Reply)
      ensures reply == Rendezvous.GetAnswer(store, token)
    {
      if token !in store {
        return NoSession;
      }
      var slot := store[token];
      if !Truthy(slot.answer) {
        return Reply(204, Empty);
      }
      reply := Reply(200, Description(slot.answer.value));
    }

    /** GET /api/debug. */
    method Debug(token: string) returns (reply: Reply)
      ensures reply == DebugSlot(store, token)
    {
      if token !in store {
        return NoSession;
      }
      var slot := store[token];
      reply := Reply(200, Rendezvous.Debug(Truthy(slot.offer), Truthy(slot.answer), slot.at));
    }

    /** The body of the one-minute `setInterval`: walk the entries and delete
        each one idle for longer than the TTL. */
    method Sweep(now: int)
      modifies this
      ensures store == Swept(old(store), now)
    {
      var pending := store.Keys;
      while pending != {}
        invariant pending <= old(store).Keys
        invariant store == map k | k in old(store) && (k in pending || !Stale(old(store)[k], now)) :: old(store)[k]
        decreases pending
      {
        var k :| k in pending;
        if now - store[k].at > TTL_MS {
          store := store - {k};
        }
        pending := pending - {k};
      }
    }
  }
}
